=== FILE: README.md ===
# DreamFM front-end core, modelled in Dafny

DreamFM is a browser audiobook app. This project models the three parts of its
front-end that have precise sequential behaviour, and proves properties of them:

- **The audio player** (`player.js`), in `player.dfy`. The global `PlayerState` record is
  kept next to the browser's table of live object URLs ("blob URLs"). Each handler is a
  pure transition on that world:
  - opening a book;
  - loading a chapter through the Cloudflare worker URL;
  - previous/next chapter;
  - a click in the chapter list;
  - play/pause;
  - end of chapter and media error;
  - the speed button;
  - page unload.

  Whatever the network or the media element decides is an input of the step. That means
  whether `fetch` succeeded, and whether `play()` resolved. `formatTime` is modelled on
  JavaScript numbers: NaN, the infinities, and exact reals.
- **The library list operations** (`app.js`), in `library.dfy`. These are pure functions
  over the catalog `window.allAudiobooks`:
  - page routing;
  - lookup by id (`openBook`);
  - the category filter;
  - the title/author search;
  - the sort menu;
  - the popular carousel;
  - the unit choice of the plays badge.
- **The service-worker cache policy** (`service-worker.js`), in `service_worker.dfy`.
  `CacheStorage` is a sequence of named caches in creation order, and each cache maps a
  request URL to a response. The `install`, `activate` and `fetch` handlers are
  transitions on that storage.

Supporting modules:

- `optional.dfy`: `Option`.
- `text.dfy`: ASCII lower-casing, `includes`, end-anchored match, decimal rendering and
  `padStart`.
- `seqs.dfy`: `Array.prototype.filter`, and the stable sort by a numeric key.
- `catalog.dfy`: the book record and the `{id, ...data}` spread.

Behaviour of the code worth knowing:

- `formatTime` has no hours field: 3725 seconds render as `62:05`.
- `loadChapter` has no guard against stale responses.
- `previousChapter` and `nextChapter` show no notification at the first or last chapter.
- A failed load leaves `blobUrl` naming the handle it has just revoked, and leaves the
  element's `src` as it was.
- A rejected `play()` leaves the state as it was: `isPlaying` is only set once `play()` resolves.
- A successful chapter load resets the element's rate to 1 while `playbackSpeed` keeps the
  chosen speed (see Findings). Every handler that loads a chapter takes a `Variant`:
  `AsWritten` runs the code as written, `Corrected` re-applies the speed after `load()`.
  The chapter-range and blob-handle invariants are proved for both. The rate invariant is
  proved for the corrected load only. The library's `openBook` takes the variant too and
  passes it to `playAudiobook`.

## Model

| member | source | states |
|---|---|---|
| Catalog.WithId | player.js:107-110 | `{id: bookId, ...bookData}`: the record's own id wins and `bookId` only fills a missing one; every other field is the record's |
| Text.Lower | app.js:500-501 | `toLowerCase` (ASCII): same length, each character lowered, no upper-case letter left |
| Text.LowerIdempotent | app.js:500-501 | lower-casing an already lower-cased query changes nothing |
| Text.IncludesIff | app.js:500-501 | the `includes` scan succeeds exactly when some window of the text equals the query |
| Text.IncludesEmpty | app.js:494-497 | every text includes the empty query |
| Text.NatToDecimal | player.js:169 | a number in a template literal: digits only, at least one, no leading zero |
| Text.DecimalRoundTrip | player.js:169 | reading the rendered digits back gives the number |
| Text.NatToDecimalInjective | player.js:169 | different numbers render differently |
| Text.IntToDecimal | player.js:373 | a negative number renders as `-` followed by the digits of its magnitude |
| Text.PadStart | player.js:373 | `padStart`: pads on the left with the fill up to the width, keeps the string as the suffix, never truncates |
| Seqs.Filter | app.js:488 | `filter` never grows the list |
| Seqs.FilterMembers | app.js:488 | the filtered list holds exactly the elements of the input that satisfy the predicate |
| Seqs.FilterCounts | app.js:488 | each kept element appears exactly as often as in the input |
| Seqs.FilterConcat | app.js:488 | filtering distributes over concatenation, so kept elements stay in their original order |
| Seqs.SortDesc | app.js:511-516 | the sorted list is a permutation of the input and no element has a larger key than one before it |
| Seqs.SortStable | app.js:511-516 | the sort is stable: elements with equal keys keep their original relative order |
| Player.Initial | player.js:61-67 | the state after `initializePlayer`: the `PlayerState` defaults (no book, chapter 1, not playing, no blob URL) and an element exactly when the page has one |
| Player.GenerateAudioUrlInjective | player.js:167-170 | two chapter URLs are equal only for the same slug and chapter number |
| Player.LoadChapter | player.js:121-164 | without a book nothing happens; otherwise the chapter is set first, the old blob URL is revoked, the worker URL for the slug and chapter is fetched; on success exactly one fresh handle is created and becomes `blobUrl` and `src`; on failure nothing is created or rolled back and the "not available" toast shows; on success the element is loaded with the new source and plays at `playbackSpeed` (corrected, see Findings) |
| Player.LoadChapterAsWritten | player.js:150-155 | the load as player.js writes it: identical to `LoadChapter` except that after a successful load the element's rate is the default 1, whatever `playbackSpeed` says |
| Player.AsWrittenLoadDropsSpeed | player.js:150-155 | with any speed but 1 chosen, a successful load as written leaves the element's rate different from `playbackSpeed` |
| Player.PlayAudiobook | player.js:104-118 | opening a book stores the spread record, resets to chapter 1 and fetches chapter 1 |
| Player.PlayAudiobookForgetsChapter | player.js:104-118 | the result of opening a book does not depend on the chapter current before |
| Player.PreviousChapter | player.js:231-238 | at chapter 1 or below nothing happens; above it the previous chapter loads, and a resume is scheduled exactly when playing |
| Player.NextChapter | player.js:241-249 | without a book or at the last chapter nothing happens; otherwise the next chapter loads, and a resume is scheduled exactly when playing |
| Player.ChapterList | player.js:327-343 | one item per chapter `1..totalChapters`, numbered in order, the current chapter's item active; none without a book |
| Player.ChapterListOneActive | player.js:337-339 | exactly one item is active when the current chapter is in range, and never two |
| Player.SelectChapter | player.js:345-350 | a click on an item loads that item's chapter and schedules a resume exactly when playing |
| Player.TogglePlayPause | player.js:195-217 | without element or source only a toast; when playing, pause at once; when paused, playing only if `play()` resolves, a rejection changes nothing and shows a toast |
| Player.ToggleTwiceRestores | player.js:195-217 | pausing then resuming with a resolving `play()` returns to the same world |
| Player.OnAudioEnded | player.js:271-278 | afterwards the player is not playing and no resume is scheduled; it advances one chapter exactly when not at the last one |
| Player.OnAudioError | player.js:280-285 | the error toast shows and only `isPlaying` changes, to false |
| Player.IndexOf | player.js:307 | `indexOf`: -1 exactly when absent, otherwise the first position holding the value |
| Player.NextIndex | player.js:308 | `(currentIndex + 1) % speeds.length` for an index `indexOf` can return: the next position, wrapping after the last, and 0 for -1 |
| Player.CycleSpeed | player.js:305-314 | the next listed speed, cyclically; an unlisted speed goes to 1; the element's rate follows; nothing else changes; the element keeps its `src` and only its rate changes |
| Player.FiveCyclesRestoreSpeed | player.js:305-311 | five presses return to the starting listed speed |
| Player.CycleStep | player.js:307-310 | one press moves from the speed at position k to the speed at the next position, wrapping after the last |
| Player.CycleTimesStep | player.js:307-310 | each further press moves one position along the list |
| Player.SuccFive | player.js:305-311 | five steps along the five-speed list come back to the start |
| Player.Unload | player.js:397-401 | unloading revokes the current blob URL and changes nothing else |
| Player.FormatTime | player.js:368-369 | NaN renders as `0:00` |
| Player.FormatTimeWholeSeconds | player.js:368-374 | a non-negative time renders as whole minutes (uncapped), a colon, and the remaining whole seconds as exactly two digits |
| Player.FormatTimeParts | player.js:371-373 | given the minutes and seconds of a time, the rendering is the minutes in decimal, a colon and the seconds in two digits |
| Player.JsRemainderSign | player.js:372 | `s % 60` is below 60 in magnitude and takes the sign of `s`: in `[0, 60)` for `s >= 0`, in `(-60, 0]` for negative `s` |
| Player.MinutesAndSeconds | player.js:371-372 | for a non-negative time, `floor(s/60)` and `floor(s % 60)` are the quotient and remainder of the whole seconds by 60 |
| Player.PadSeconds | player.js:373 | zero-padding a seconds count below 60 gives its two-digit form |
| Player.PadOneDigit | player.js:373 | a one-digit count gets one leading zero |
| Player.PadTwoDigits | player.js:373 | a two-digit count is not padded |
| Player.TwoDigits | player.js:373 | the padded seconds field is exactly two digits |
| Player.TwoDigitsReadBack | player.js:373 | the two-digit form reads back as the number |
| Player.FormatTimeOverAnHour | player.js:368-374 | 3725 seconds render as `62:05`: there is no hours field |
| Player.FormatTimeUnderAMinute | player.js:368-374 | 45 seconds render as `0:45` |
| Player.InitialValid | player.js:8-16 | the start state satisfies the chapter-range and blob-handle invariants |
| Player.LoadKeepsRate | player.js:154-155 | the corrected load keeps the element's rate equal to `playbackSpeed` |
| Player.LoadValid | player.js:150-155 | a load of either variant keeps the blob discipline, and the corrected load also keeps the rate at `playbackSpeed` |
| Player.LoadKeepsHandles | player.js:131-154 | a chapter load keeps the blob discipline whatever the fetch outcome |
| Player.OpenBookValid | player.js:104-118 | opening a book keeps the invariants: chapter 1 is in range for any book |
| Player.PreviousValid | player.js:231-238 | going back never leaves chapter 1 or above |
| Player.NextValid | player.js:241-249 | going forward never passes the last chapter |
| Player.SelectValid | player.js:334-350 | a chapter-list click keeps the chapter in range |
| Player.DispatchValid | player.js:73-97 | every handler the listeners attach (and the `beforeunload` handler) preserves the invariants, for the code as written and for the corrected load: chapter in `1..max(1,totalChapters)`, live handles only `blobUrl`, `src` is `blobUrl`, playing only with a source; with the corrected load also the element's rate equal to `playbackSpeed` |
| Player.RunValid | player.js:73-97 | any sequence of handled events from a valid state keeps the invariants of the chosen load, so chapter bounds and the blob discipline hold throughout, for the code as written too |
| Player.AtMostOneLiveHandle | player.js:131-154 | in any session, of the code as written or with the corrected load, at most one blob URL is live, and a live one is `blobUrl` |
| Player.RateAlwaysFollowsSpeed | player.js:305-311 | in any session the element plays at the speed `playbackSpeed` shows, once loads re-apply it |
| Player.AsWrittenRunDropsSpeed | player.js:150-155 | a session of the code as written, one speed press then opening a book whose chapter loads, ends with `playbackSpeed` 1.25 and the element at rate 1 |
| Player.LoadLeavesOnlyNewHandle | player.js:131-154 | after a successful load, as written or corrected, `blobUrl` is the next fresh handle, never issued before, and it alone is live; after a failed one none is and `blobUrl` still names the revoked handle |
| Player.UnloadReleasesAll | player.js:397-401 | after unload no blob URL is live |
| Library.NavigateTo | app.js:39-56 | `library` and `profile` route to their pages, every other name to home |
| Library.NavigateToPageName | app.js:43-52 | routing by a page's own name reaches that page |
| Library.FindIndex | app.js:321 | `find` gives the first book with the id, or nothing exactly when no book has it |
| Library.OpenBook | app.js:317-329 | an unknown id only shows "Book not found"; a known id plays the first such book through `playAudiobook` with the chosen load: it becomes the current book, and chapter 1 is current and fetched, with no resume scheduled |
| Library.OpenBookKeepsId | app.js:321-325 | the book opened has the id it was looked up by |
| Library.FilterLibrary | app.js:476-491 | `all` shows the whole catalog; any other category exactly the books of that category, as a subsequence |
| Library.FilterLibraryKeepsOrder | app.js:488 | the category filter keeps catalog order |
| Library.SearchBooks | app.js:493-505 | an empty query shows everything; otherwise a book is kept exactly when its lower-cased title or author contains the lower-cased query |
| Library.SearchHitMeansOccurrence | app.js:499-502 | a search hit is exactly an occurrence of the lower-cased query in the lower-cased title or author |
| Library.EmptySearchIsFilter | app.js:494-497 | the early return for an empty query agrees with what the filter would return |
| Library.SearchIgnoresQueryCase | app.js:500-501 | the result does not depend on the case of the query |
| Library.SearchKeepsOrder | app.js:499-504 | search keeps catalog order |
| Library.SortBooks | app.js:507-527 | `popular` and `rating` give a permutation sorted by plays or rating, largest first, a missing value counting as 0; `title` a permutation in collation order; `recent` and unknown keys keep the catalog order |
| Library.SortBooksStable | app.js:511-519 | books with equal plays, equal rating or equally ranked titles keep their catalog order |
| Library.PopularBooks | app.js:248-259 | the popular carousel holds the first ten books, reordered by plays, largest first |
| Library.FormatPlaysUnit | app.js:287-294 | the M branch exactly from 1000000, the K branch exactly from 1000 below that, otherwise the number itself |
| Library.FormatPlaysUnitMonotone | app.js:287-294 | more plays never get a smaller unit |
| ServiceWorker.Find | service-worker.js:14 | the position of the cache with a name, or none exactly when no cache has it |
| ServiceWorker.Open | service-worker.js:14 | `caches.open`: afterwards the cache exists and no stored response has changed |
| ServiceWorker.PutEntries | service-worker.js:57 | `cache.put`: the given entries are stored in the named cache and no other entry changes |
| ServiceWorker.Match | service-worker.js:42 | `caches.match`: the response stored by the first cache, in creation order, that holds the URL; nothing exactly when no cache holds it; nothing for a non-GET request |
| ServiceWorker.Install | service-worker.js:1-21 | install succeeds exactly when every static URL is fetched with an accepted response; then the current cache holds them all; otherwise no entry changes |
| ServiceWorker.Activate | service-worker.js:24-37 | only the current cache is left, with its entries unchanged, and it is left exactly when it existed |
| ServiceWorker.OnlyCurrent | service-worker.js:28-32 | deleting every other cache leaves exactly the current one |
| ServiceWorker.ActivateIdempotent | service-worker.js:24-37 | activating twice is activating once |
| ServiceWorker.ActivatedServesStatic | service-worker.js:12-46 | after a successful install and activation, a GET of any static URL is answered from the cache without the network |
| ServiceWorker.HandleFetch | service-worker.js:40-65 | a hit returns the stored response without the network; a miss returns the network response unchanged, or a network error; only the current cache's entry for the URL may change |
| ServiceWorker.FetchStoresIff | service-worker.js:49-58 | on a miss the response is stored exactly when it is a 200, non-opaque response for a GET of a URL ending in a cached extension; otherwise nothing changes |
| ServiceWorker.StoredThenHit | service-worker.js:42-58 | after a response is stored, the same request is answered from the cache without the network |
| ServiceWorker.QueryStringPreventsCaching | service-worker.js:54 | a URL with a query string that has no `.` is never cached: the extension must end the URL |
| ServiceWorker.ExtensionCaseMatters | service-worker.js:54 | the extension match is case-sensitive |

## Left out

- DOM rendering and presentation are not modelled. This covers `updatePlayerUI`, `updatePlayButton`, the card templates, the mini/full player visibility, the toast element and its timers. A toast is a `Notice` value in the step result.
- The DevTools detection, the context-menu block and the keyboard block (player.js:19-58) are not modelled. They depend on polling the browser window.
- Firebase and Firestore loading (`loadAudiobooks`, `loadLibraryBooks`, `addSampleAudiobook`) and all of auth.js are not modelled, because they wrap a hosted SDK. The catalog is a parameter.
- Real network traffic, blob bytes, audio decoding and `setTimeout` delays are not modelled. Each handler is one atomic step with its outcome as an input. A scheduled resume is a flag in the step result, and the auto-advance runs within the `ended` step.
- Overlapping `loadChapter` calls are not modelled, and the model claims no guard against stale responses, because the code has none. Loads are sequential.
- Events before `initializePlayer` finds an element: when the page has no `<audio>`, player.js:64-67 returns before attaching any listener, so no player event can fire. `Dispatch` still accepts events from `Initial(false)`; this over-approximates the program and the invariants hold for it. The no-element branches of `CycleSpeed` and `TogglePlayPause` are unreachable in the program.
- Player.LoadChapter: the pause that `load()` performs is not modelled. The element has no paused attribute here, and `isPlaying` is the player's own flag.
- Seeking, the volume slider and the `volume` field's updates are not modelled, because they are floating-point arithmetic on DOM values.
- Library.FormatPlaysUnit: states which branch of `formatPlays` renders the count, not the `toFixed(1)` text, because that is floating-point formatting.
- The rating text and the random plays fallback on library cards are not modelled, because they are floating-point formatting and randomness.
- Player.FormatTime: the argument is a number (NaN, an infinity or a finite value). Non-number arguments such as `undefined`, for which `isNaN` also holds, are not modelled.
- Numbers are exact reals, not IEEE doubles. JavaScript's exponent notation for very large numbers is not modelled.
- Text.Lower: only ASCII letters are lower-cased; Unicode case mapping is not modelled.
- Library.SortBooks: `localeCompare` itself is not modelled, because collation depends on the user's locale. The title order is a parameter that ranks each title.
- Records are assumed well-formed: every book has a `title`, an `audioSlug` and an integer `totalChapters`, and `window.allAudiobooks` is defined. The type errors the code throws otherwise are not modelled.
- `caches.match` takes the request URL as its only key. Vary headers and match options are not modelled.
- `cache.put` is modelled as finishing within the fetch step, and its rejection for a non-GET request is modelled as storing nothing.
- `skipWaiting` and `clients.claim` are not modelled, because they concern which pages the worker controls, not what is cached.

## Findings

| source | as written | input that shows it | evidently intended | confidence | as-written member | corrected member |
|---|---|---|---|---|---|---|
| player.js:154-155 | after a chapter is fetched, `src` is assigned and `load()` called; the HTML media element load algorithm then resets `playbackRate` to `defaultPlaybackRate`, which is 1, and nothing re-applies `playbackSpeed` | press the speed button twice (1.5x), then press next chapter with the fetch succeeding: `playbackSpeed` and the button say 1.5x, the audio plays at 1x | the chosen speed carries over to every chapter, as `cycleSpeed` sets it on the element (player.js:310-311) | medium, not executed | Player.AsWrittenLoadDropsSpeed | Player.LoadChapter |

=== FILE: catalog.dfy ===
/**
 The audiobook record as the front-end sees it: a Firestore document spread into a
 plain object together with its document id (`{id: doc.id, ...doc.data()}`).
 Only the fields the modelled operations read are kept.
 */
module Catalog {
  import opened Optional

  datatype Book = Book(
    id: Option<string>,         // the object's own `id` property, if it has one
    title: string,
    author: Option<string>,
    category: Option<string>,
    plays: Option<int>,
    rating: Option<real>,
    audioSlug: string,
    totalChapters: int)

  /**
   The object literal `{id: bookId, ...bookData}`: a spread property overrides an
   earlier one, so the record's own id wins and `bookId` only fills a missing id.
   Every other field is copied unchanged.
   */
  function WithId(bookId: string, bookData: Book): (b: Book)
    ensures b.id == if bookData.id.Some? then bookData.id else Some(bookId)
    ensures b.(id := bookData.id) == bookData
  {
    match bookData.id
    case Some(_) => bookData
    case None => bookData.(id := Some(bookId))
  }
}

=== FILE: library.dfy ===
/**
 The list operations of app.js over `window.allAudiobooks`: page routing, looking a
 book up by id, the category filter, the search box, the sort menu, the popular
 carousel and the choice of unit in the plays badge. Each screen operation returns
 the sequence it would hand to the renderer; the catalog itself is never changed.
 */
module Library {
  import opened Optional
  import opened Catalog
  import Text
  import Seqs
  import Player

  // ---------------------------------------------------------------------------
  // Routing
  // ---------------------------------------------------------------------------

  datatype Page = Home | LibraryPage | Profile

  /** The `data-page` value that names each page. */
  function PageName(p: Page): string {
    match p
    case Home => "home"
    case LibraryPage => "library"
    case Profile => "profile"
  }

  /** `navigateTo(page)`: the page whose loader runs; an unknown name falls back to home. */
  function NavigateTo(page: string): (r: Page)
    ensures page == "library" <==> r == LibraryPage
    ensures page == "profile" <==> r == Profile
    ensures r == Home <==> page != "library" && page != "profile"
  {
    if page == "home" then Home
    else if page == "library" then LibraryPage
    else if page == "profile" then Profile
    else Home
  }

  /** Routing by a page's own name reaches that page. */
  lemma NavigateToPageName(p: Page)
    ensures NavigateTo(PageName(p)) == p
  {
  }

  // ---------------------------------------------------------------------------
  // Lookup
  // ---------------------------------------------------------------------------

  /** `books.find(b => b.id === bookId)` from position `from` on, as an index. */
  function FindFrom(books: seq<Book>, bookId: string, from: nat): (r: Option<nat>)
    requires from <= |books|
    ensures r.Some? ==> from <= r.value < |books| && books[r.value].id == Some(bookId)
    ensures r.Some? ==> forall j :: from <= j < r.value ==> books[j].id != Some(bookId)
    ensures r.None? ==> forall j :: from <= j < |books| ==> books[j].id != Some(bookId)
    decreases |books| - from
  {
    if from == |books| then None
    else if books[from].id == Some(bookId) then Some(from)
    else FindFrom(books, bookId, from + 1)
  }

  /** The position of the first book whose id is `bookId`, if any. */
  function FindIndex(books: seq<Book>, bookId: string): (r: Option<nat>)
    ensures r.Some? ==> r.value < |books| && books[r.value].id == Some(bookId)
    ensures r.Some? ==> forall j :: 0 <= j < r.value ==> books[j].id != Some(bookId)
    ensures r.None? <==> forall b :: b in books ==> b.id != Some(bookId)
  {
    FindFrom(books, bookId, 0)
  }

  /**
   `openBook(bookId)`: plays the first book with that id; when none has it, only the
   "Book not found" toast is shown and the player is untouched.
   `variant` is the player's `loadChapter`: as written, or with the speed re-applied.
   */
  function OpenBook(books: seq<Book>, bookId: string, w: Player.World, fetch: Player.FetchOutcome, variant: Player.Variant): (r: Player.Step)
    ensures FindIndex(books, bookId).None? ==> r == Player.Step(w, None, Some(Player.BookNotFound), false)
    ensures FindIndex(books, bookId).Some? ==>
      && r.world.player.currentBook == Some(books[FindIndex(books, bookId).value])
      && r.world.player.currentChapter == 1
      && r.fetched == Some(Player.GenerateAudioUrl(books[FindIndex(books, bookId).value].audioSlug, 1))
      && !r.resumeScheduled
  {
    match FindIndex(books, bookId)
    case None => Player.Step(w, None, Some(Player.BookNotFound), false)
    case Some(i) => Player.PlayAudiobook(w, bookId, books[i], fetch, variant)
  }

  /** A book opened from the catalog keeps the id it was looked up by. */
  lemma OpenBookKeepsId(books: seq<Book>, bookId: string, w: Player.World, fetch: Player.FetchOutcome, variant: Player.Variant)
    requires exists b :: b in books && b.id == Some(bookId)
    ensures OpenBook(books, bookId, w, fetch, variant).world.player.currentBook.value.id == Some(bookId)
  {
  }

  // ---------------------------------------------------------------------------
  // Filter and search
  // ---------------------------------------------------------------------------

  function InCategory(category: string): Book -> bool {
    (b: Book) => b.category == Some(category)
  }

  /** `filterLibrary(category)`: everything for `'all'`, else the books of that category in catalog order. */
  function FilterLibrary(books: seq<Book>, category: string): (r: seq<Book>)
    ensures category == "all" ==> r == books
    ensures category != "all" ==> forall b :: b in r <==> b in books && b.category == Some(category)
    ensures category != "all" ==> r == Seqs.Filter(InCategory(category), books)
  {
    if category == "all" then books
    else
      Seqs.FilterMembers(InCategory(category), books);
      Seqs.Filter(InCategory(category), books)
  }

  /** Filtering the catalog piecewise gives the pieces' results in order: the filter keeps catalog order. */
  lemma FilterLibraryKeepsOrder(a: seq<Book>, b: seq<Book>, category: string)
    ensures FilterLibrary(a + b, category) == FilterLibrary(a, category) + FilterLibrary(b, category)
  {
    if category != "all" {
      Seqs.FilterConcat(InCategory(category), a, b);
    }
  }

  /** A search hit for an already lower-cased query: in the lower-cased title or the lower-cased author. */
  predicate SearchHit(lowerQuery: string, b: Book) {
    || Text.Includes(Text.Lower(b.title), lowerQuery)
    || (b.author.Some? && Text.Includes(Text.Lower(b.author.value), lowerQuery))
  }

  function Matches(lowerQuery: string): Book -> bool {
    (b: Book) => SearchHit(lowerQuery, b)
  }

  /**
   `searchBooks(query)`: an empty query shows the whole catalog; otherwise a book is kept
   exactly when its title, or its author, contains the query, ignoring ASCII case.
   */
  function SearchBooks(books: seq<Book>, query: string): (r: seq<Book>)
    ensures query == "" ==> r == books
    ensures query != "" ==> forall b :: b in r <==> b in books && SearchHit(Text.Lower(query), b)
    ensures query != "" ==> r == Seqs.Filter(Matches(Text.Lower(query)), books)
  {
    if query == "" then books
    else
      Seqs.FilterMembers(Matches(Text.Lower(query)), books);
      Seqs.Filter(Matches(Text.Lower(query)), books)
  }

  /** A kept book really contains the query: some window of its lower-cased title or author is the lower-cased query. */
  lemma SearchHitMeansOccurrence(lowerQuery: string, b: Book)
    ensures SearchHit(lowerQuery, b) <==>
      || (exists i :: Text.OccursAt(Text.Lower(b.title), lowerQuery, i))
      || (b.author.Some? && exists i :: Text.OccursAt(Text.Lower(b.author.value), lowerQuery, i))
  {
    Text.IncludesIff(Text.Lower(b.title), lowerQuery);
    if b.author.Some? {
      Text.IncludesIff(Text.Lower(b.author.value), lowerQuery);
    }
  }

  /** The early return for an empty query agrees with the filter it skips: every book contains "". */
  lemma EmptySearchIsFilter(books: seq<Book>)
    ensures Seqs.Filter(Matches(Text.Lower("")), books) == SearchBooks(books, "")
  {
    forall b | b in books
      ensures Matches(Text.Lower(""))(b)
    {
      Text.IncludesEmpty(Text.Lower(b.title));
    }
    Seqs.FilterAllPass(Matches(Text.Lower("")), books);
  }

  /** Searching is insensitive to the case of the query. */
  lemma SearchIgnoresQueryCase(books: seq<Book>, query: string)
    ensures SearchBooks(books, Text.Lower(query)) == SearchBooks(books, query)
  {
    Text.LowerIdempotent(query);
  }

  /** Searching the catalog piecewise gives the pieces' results in order. */
  lemma SearchKeepsOrder(a: seq<Book>, b: seq<Book>, query: string)
    ensures SearchBooks(a + b, query) == SearchBooks(a, query) + SearchBooks(b, query)
  {
    if query != "" {
      Seqs.FilterConcat(Matches(Text.Lower(query)), a, b);
    }
  }

  // ---------------------------------------------------------------------------
  // Sorting
  // ---------------------------------------------------------------------------

  /** `b.plays || 0` as a sort key. */
  function PlaysKey(b: Book): real {
    b.plays.GetOr(0) as real
  }

  /** `b.rating || 0` as a sort key. */
  function RatingKey(b: Book): real {
    b.rating.GetOr(0.0)
  }

  /**
   The title order of `localeCompare`, as a rank: `collation(x) < collation(y)` when `x`
   sorts before `y` in the user's locale, equal ranks when they compare equal.
   */
  function TitleKey(collation: string -> real): Book -> real {
    (b: Book) => -collation(b.title)
  }

  /**
   `sortBooks(sortBy)` on a copy of the catalog: most plays first for `'popular'`, highest
   rating first for `'rating'`, a missing value counting as 0; titles in collation order
   for `'title'`; ties in catalog order. `'recent'` and unknown keys keep the catalog order.
   */
  function SortBooks(books: seq<Book>, sortBy: string, collation: string -> real): (r: seq<Book>)
    ensures multiset(r) == multiset(books)
    ensures sortBy == "popular" ==> Seqs.SortedDesc(PlaysKey, r)
    ensures sortBy == "rating" ==> Seqs.SortedDesc(RatingKey, r)
    ensures sortBy == "title" ==> forall i, j :: 0 <= i < j < |r| ==> collation(r[i].title) <= collation(r[j].title)
    ensures sortBy !in {"popular", "rating", "title"} ==> r == books
  {
    if sortBy == "popular" then Seqs.SortDesc(PlaysKey, books)
    else if sortBy == "rating" then Seqs.SortDesc(RatingKey, books)
    else if sortBy == "title" then
      var r := Seqs.SortDesc(TitleKey(collation), books);
      assert forall i, j :: 0 <= i < j < |r| ==> TitleKey(collation)(r[i]) >= TitleKey(collation)(r[j]);
      r
    else books
  }

  /** The sort key each menu entry orders by, largest first. */
  function MenuKey(sortBy: string, collation: string -> real): Book -> real {
    if sortBy == "popular" then PlaysKey
    else if sortBy == "rating" then RatingKey
    else TitleKey(collation)
  }

  /** Books with equal plays, equal rating or equally ranked titles appear in the sorted list in catalog order. */
  lemma SortBooksStable(books: seq<Book>, sortBy: string, collation: string -> real, k: real)
    requires sortBy in {"popular", "rating", "title"}
    ensures var key := MenuKey(sortBy, collation);
      Seqs.Filter(Seqs.KeyIs(key, k), SortBooks(books, sortBy, collation)) == Seqs.Filter(Seqs.KeyIs(key, k), books)
  {
    Seqs.SortStable(MenuKey(sortBy, collation), k, books);
  }

  /** `displayPopularBooks(allAudiobooks.slice(0, 10))`: the first ten books, most plays first. */
  function PopularBooks(books: seq<Book>): (r: seq<Book>)
    ensures |r| == if |books| < 10 then |books| else 10
    ensures multiset(r) == multiset(books[..|r|])
    ensures Seqs.SortedDesc(PlaysKey, r)
  {
    var n := if |books| < 10 then |books| else 10;
    Seqs.SortDesc(PlaysKey, books[..n])
  }

  // ---------------------------------------------------------------------------
  // Plays badge
  // ---------------------------------------------------------------------------

  /** Which branch of `formatPlays(num)` renders the count: millions, thousands, or the number itself. */
  datatype PlaysUnit = Millions | Thousands | Plain

  function FormatPlaysUnit(num: int): (u: PlaysUnit)
    ensures u == Millions <==> num >= 1000000
    ensures u == Thousands <==> 1000 <= num < 1000000
    ensures u == Plain <==> num < 1000
  {
    if num >= 1000000 then Millions
    else if num >= 1000 then Thousands
    else Plain
  }

  function UnitRank(u: PlaysUnit): nat {
    match u
    case Plain => 0
    case Thousands => 1
    case Millions => 2
  }

  /** More plays never get a smaller unit. */
  lemma FormatPlaysUnitMonotone(a: int, b: int)
    requires a <= b
    ensures UnitRank(FormatPlaysUnit(a)) <= UnitRank(FormatPlaysUnit(b))
  {
  }
}

=== FILE: optional.dfy ===
/** A JavaScript value that may be `null` or `undefined` is modelled as an Option. */
module Optional {

  datatype Option<+T> = None | Some(value: T) {

    /** The value, or `default` when absent: JavaScript's `x || default` for a field that is never falsy when present. */
    function GetOr(default: T): T {
      match this
      case Some(v) => v
      case None => default
    }
  }
}

=== FILE: player.dfy ===
/**
 The audio player of player.js as a state machine. `PlayerState` is the global
 record of player.js; the browser's object-URL table (created and not yet revoked
 blob URLs) is modelled next to it, so that the create/revoke discipline can be
 stated. Every handler is one atomic step; what the network or the media device
 decides (fetch success, `play()` resolving) is an input of the step.
 */
module Player {
  import opened Optional
  import opened Catalog
  import Text
  import Seqs

  /** A blob URL returned by `URL.createObjectURL`, identified by its creation number. */
  type Handle = nat

  /** The `<audio>` element's attributes the player writes: `src` (empty until first set) and `playbackRate`. */
  datatype AudioElement = AudioElement(src: Option<Handle>, playbackRate: real)

  datatype PlayerState = PlayerState(
    currentBook: Option<Book>,
    currentChapter: int,
    isPlaying: bool,
    audioElement: Option<AudioElement>,   // None when the element was not found at start-up
    playbackSpeed: real,
    volume: real,
    blobUrl: Option<Handle>)

  /** The browser's object-URL table: the handles created and not yet revoked, and the next fresh handle. */
  datatype BlobTable = BlobTable(live: set<Handle>, next: Handle)

  datatype World = World(player: PlayerState, blobs: BlobTable)

  /** The toasts the player shows. */
  datatype Notice =
    | ChapterLoaded(chapter: int)
    | ChapterUnavailable(chapter: int)
    | NoAudioLoaded
    | PlayFailed
    | AudioFileNotFound
    | BookNotFound

  /** How `fetch(audioUrl)` and `response.blob()` end: success, a non-ok status, or a thrown error. */
  datatype FetchOutcome = Fetched | NotOk | Threw

  /** How the promise returned by `audioElement.play()` settles. */
  datatype PlayOutcome = Resolved | Rejected

  /**
   One handler run to completion: the new world, the chapter URL it fetched (if any),
   the toast it showed (if any), and whether it scheduled a deferred `audioElement.play()`.
   */
  datatype Step = Step(world: World, fetched: Option<string>, notice: Option<Notice>, resumeScheduled: bool)

  const WorkerUrl: string := "https://gentle-union-d9c6.singhvikas21571.workers.dev"

  const Speeds: seq<real> := [1.0, 1.25, 1.5, 1.75, 2.0]

  function OptSet(h: Option<Handle>): set<Handle> {
    if h.Some? then {h.value} else {}
  }

  function Max(a: int, b: int): int {
    if a < b then b else a
  }

  /** The state after `initializePlayer`, with or without an `<audio id="audioElement">` on the page. */
  function Initial(audioFound: bool): (w: World)
    ensures w.blobs.live == {} && w.player.blobUrl == None
    ensures w.player.currentBook == None && w.player.currentChapter == 1 && !w.player.isPlaying
    ensures w.player.audioElement.Some? <==> audioFound
  {
    var audio := if audioFound then Some(AudioElement(None, 1.0)) else None;
    World(PlayerState(None, 1, false, audio, 1.0, 1.0, None), BlobTable({}, 0))
  }

  // ---------------------------------------------------------------------------
  // Chapter URLs
  // ---------------------------------------------------------------------------

  /** `generateAudioURL`: the worker URL, the slug, and `chapter-<n>.mp3` with `n` in unpadded decimal. */
  function GenerateAudioUrl(audioSlug: string, chapterNum: int): string {
    WorkerUrl + "/" + ChapterPath(audioSlug, chapterNum) + ".mp3"
  }

  /** The part of a chapter URL between the worker URL and the extension. */
  function ChapterPath(audioSlug: string, chapterNum: int): string {
    audioSlug + "/chapter-" + Text.IntToDecimal(chapterNum)
  }

  /** Two chapter URLs coincide only for the same slug and the same chapter: each chapter has its own address. */
  lemma GenerateAudioUrlInjective(slug1: string, n1: nat, slug2: string, n2: nat)
    requires GenerateAudioUrl(slug1, n1) == GenerateAudioUrl(slug2, n2)
    ensures slug1 == slug2 && n1 == n2
  {
    CancelAffixes(WorkerUrl + "/", ChapterPath(slug1, n1), ChapterPath(slug2, n2), ".mp3");
    var d1, d2 := Text.NatToDecimal(n1), Text.NatToDecimal(n2);
    assert ChapterPath(slug1, n1) == slug1 + "/chapter-" + d1;
    assert ChapterPath(slug2, n2) == slug2 + "/chapter-" + d2;
    DigitsAfterMarker(slug1, d1, slug2, d2);
    Text.NatToDecimalInjective(n1, n2);
    var m := ChapterPath(slug1, n1);
    assert slug1 + "/chapter-" == m[..|m| - |d1|];
    assert slug2 + "/chapter-" == m[..|m| - |d2|];
    assert slug1 == (slug1 + "/chapter-")[..|slug1|];
    assert slug2 == (slug2 + "/chapter-")[..|slug2|];
  }

  lemma CancelAffixes(pre: string, a: string, b: string, suf: string)
    requires pre + a + suf == pre + b + suf
    ensures a == b
  {
    assert a == (pre + a + suf)[|pre|..|pre| + |a|];
    assert b == (pre + b + suf)[|pre|..|pre| + |b|];
  }

  /** The digit run after the last `-` of `x + "/chapter-" + d` is exactly `d`. */
  lemma DigitsAfterMarker(x1: string, d1: string, x2: string, d2: string)
    requires Text.AllDigits(d1) && Text.AllDigits(d2)
    requires x1 + "/chapter-" + d1 == x2 + "/chapter-" + d2
    ensures d1 == d2
  {
    var m1 := x1 + "/chapter-" + d1;
    var m2 := x2 + "/chapter-" + d2;
    assert m1[|m1| - |d1| - 1] == '-';
    assert m2[|m2| - |d2| - 1] == '-';
    assert d1 == m1[|m1| - |d1|..];
    assert d2 == m2[|m2| - |d2|..];
  }

  // ---------------------------------------------------------------------------
  // Opening a book and loading chapters
  // ---------------------------------------------------------------------------

  /**
   `defaultPlaybackRate`, which the player never sets. Assigning `src` and calling `load()`
   run the media element load algorithm, which resets `playbackRate` to this value.
   */
  const DefaultPlaybackRate: real := 1.0

  /**
   `loadChapter(n)`. Without a book nothing happens. Otherwise the chapter index is set
   first, the current blob URL is revoked, and the chapter is fetched. On success one new
   blob URL is created and becomes both `blobUrl` and the element's `src`; if there is no
   element, assigning `src` throws inside the `try`, after the URL was created, and the
   failure toast is shown. On failure nothing is created and nothing is rolled back.
   After `load()` the chosen speed is applied to the element again, which player.js omits
   (see `LoadChapterAsWritten`).
   */
  function LoadChapter(w: World, n: int, fetch: FetchOutcome): (r: Step)
    ensures w.player.currentBook.None? ==> r == Step(w, None, None, false)
    ensures w.player.currentBook.Some? ==>
      && r.fetched == Some(GenerateAudioUrl(w.player.currentBook.value.audioSlug, n))
      && r.world.player.currentChapter == n
      && r.world.player.(currentChapter := w.player.currentChapter, blobUrl := w.player.blobUrl,
                         audioElement := w.player.audioElement) == w.player
      && !r.resumeScheduled
      && (fetch == Fetched ==>
            && r.world.player.blobUrl == Some(w.blobs.next)
            && r.world.blobs == BlobTable(w.blobs.live - OptSet(w.player.blobUrl) + {w.blobs.next}, w.blobs.next + 1)
            && (w.player.audioElement.Some? ==>
                  && r.world.player.audioElement
                     == Some(w.player.audioElement.value.(src := Some(w.blobs.next), playbackRate := w.player.playbackSpeed))
                  && r.notice == Some(ChapterLoaded(n)))
            && (w.player.audioElement.None? ==>
                  r.world.player.audioElement == None && r.notice == Some(ChapterUnavailable(n))))
      && (fetch != Fetched ==>
            && r.world.player.blobUrl == w.player.blobUrl
            && r.world.player.audioElement == w.player.audioElement
            && r.world.blobs == w.blobs.(live := w.blobs.live - OptSet(w.player.blobUrl))
            && r.notice == Some(ChapterUnavailable(n)))
  {
    LoadChapterSettingRate(w, n, fetch, w.player.playbackSpeed)
  }

  /**
   `loadChapter(n)` exactly as player.js writes it: the element keeps the rate the load
   algorithm leaves, `DefaultPlaybackRate`, while `playbackSpeed` still holds the chosen speed.
   It differs from `LoadChapter` in nothing but that rate.
   */
  function LoadChapterAsWritten(w: World, n: int, fetch: FetchOutcome): (r: Step)
    ensures var c := LoadChapter(w, n, fetch);
      r == c.(world := c.world.(player := c.world.player.(audioElement := r.world.player.audioElement)))
    ensures var c := LoadChapter(w, n, fetch).world.player.audioElement;
      r.world.player.audioElement
      == if w.player.currentBook.Some? && fetch == Fetched && c.Some? then Some(c.value.(playbackRate := DefaultPlaybackRate)) else c
  {
    LoadChapterSettingRate(w, n, fetch, DefaultPlaybackRate)
  }

  /** The common body of both loads; `rate` is the element's `playbackRate` once the new source is loaded. */
  function LoadChapterSettingRate(w: World, n: int, fetch: FetchOutcome, rate: real): Step {
    match w.player.currentBook
    case None => Step(w, None, None, false)
    case Some(book) =>
      var p := w.player.(currentChapter := n);
      var revoked := w.blobs.(live := w.blobs.live - OptSet(p.blobUrl));
      var url := GenerateAudioUrl(book.audioSlug, n);
      if fetch == Fetched then
        var h := revoked.next;
        var blobs := BlobTable(revoked.live + {h}, h + 1);
        var p' := p.(blobUrl := Some(h));
        match p'.audioElement
        case None => Step(World(p', blobs), Some(url), Some(ChapterUnavailable(n)), false)
        case Some(audio) =>
          Step(World(p'.(audioElement := Some(audio.(src := Some(h), playbackRate := rate))), blobs),
               Some(url), Some(ChapterLoaded(n)), false)
      else
        Step(World(p, revoked), Some(url), Some(ChapterUnavailable(n)), false)
  }

  /**
   The code as written loses the chosen speed: after the user picks any speed but 1x,
   a successful chapter load leaves the element playing at 1x while `playbackSpeed`,
   and so the speed button, still shows the chosen speed.
   */
  lemma AsWrittenLoadDropsSpeed(w: World, n: int)
    requires w.player.currentBook.Some? && w.player.audioElement.Some?
    requires w.player.playbackSpeed != DefaultPlaybackRate
    ensures var p := LoadChapterAsWritten(w, n, Fetched).world.player;
      && p.playbackSpeed == w.player.playbackSpeed
      && p.audioElement.Some?
      && p.audioElement.value.playbackRate != p.playbackSpeed
  {
  }

  /** Which `loadChapter` the handlers call: player.js as written, or with the speed re-applied after `load()`. */
  datatype Variant = AsWritten | Corrected

  function Load(w: World, n: int, fetch: FetchOutcome, variant: Variant): Step {
    if variant == AsWritten then LoadChapterAsWritten(w, n, fetch) else LoadChapter(w, n, fetch)
  }

  /**
   `playAudiobook(bookId, bookData)`: stores `{id: bookId, ...bookData}`, resets the
   chapter to 1 and loads chapter 1, whatever was playing or current before.
   */
  function PlayAudiobook(w: World, bookId: string, bookData: Book, fetch: FetchOutcome, variant: Variant): (r: Step)
    ensures r.world.player.currentBook == Some(WithId(bookId, bookData))
    ensures r.world.player.currentChapter == 1
    ensures r.fetched == Some(GenerateAudioUrl(bookData.audioSlug, 1))
    ensures r.world.player.isPlaying == w.player.isPlaying
    ensures !r.resumeScheduled
  {
    var p := w.player.(currentBook := Some(WithId(bookId, bookData)), currentChapter := 1);
    Load(w.(player := p), 1, fetch, variant)
  }

  /** Opening a book does not depend on which chapter was current before. */
  lemma PlayAudiobookForgetsChapter(w: World, c: int, bookId: string, bookData: Book, fetch: FetchOutcome, variant: Variant)
    ensures PlayAudiobook(w.(player := w.player.(currentChapter := c)), bookId, bookData, fetch, variant)
         == PlayAudiobook(w, bookId, bookData, fetch, variant)
  {
  }

  // ---------------------------------------------------------------------------
  // Chapter navigation
  // ---------------------------------------------------------------------------

  /**
   `previousChapter`: loads the chapter before the current one when the current one is
   above 1, and then schedules a resume if the player was playing. At chapter 1 nothing
   happens and no toast is shown.
   */
  function PreviousChapter(w: World, fetch: FetchOutcome, variant: Variant): (r: Step)
    ensures w.player.currentChapter <= 1 ==> r == Step(w, None, None, false)
    ensures w.player.currentChapter > 1 && w.player.currentBook.Some? ==>
      && r.world.player.currentChapter == w.player.currentChapter - 1
      && r.fetched == Some(GenerateAudioUrl(w.player.currentBook.value.audioSlug, w.player.currentChapter - 1))
    ensures r.resumeScheduled <==> w.player.currentChapter > 1 && w.player.isPlaying
  {
    if w.player.currentChapter > 1 then
      Load(w, w.player.currentChapter - 1, fetch, variant).(resumeScheduled := w.player.isPlaying)
    else
      Step(w, None, None, false)
  }

  /**
   `nextChapter`: loads the chapter after the current one when a book is loaded and the
   current chapter is below `totalChapters`, then schedules a resume if playing. At the
   last chapter nothing happens and no toast is shown.
   */
  function NextChapter(w: World, fetch: FetchOutcome, variant: Variant): (r: Step)
    ensures var b := w.player.currentBook;
      b.None? || w.player.currentChapter >= b.value.totalChapters ==> r == Step(w, None, None, false)
    ensures var b := w.player.currentBook;
      b.Some? && w.player.currentChapter < b.value.totalChapters ==>
        && r.world.player.currentChapter == w.player.currentChapter + 1
        && r.fetched == Some(GenerateAudioUrl(b.value.audioSlug, w.player.currentChapter + 1))
        && (r.resumeScheduled <==> w.player.isPlaying)
  {
    match w.player.currentBook
    case Some(book) =>
      if w.player.currentChapter < book.totalChapters then
        Load(w, w.player.currentChapter + 1, fetch, variant).(resumeScheduled := w.player.isPlaying)
      else
        Step(w, None, None, false)
    case None => Step(w, None, None, false)
  }

  /** One entry of the chapter list: its chapter number and whether it is marked active. */
  datatype ChapterItem = ChapterItem(number: int, active: bool)

  /** The content of `loadChaptersList`: one item per chapter `1..totalChapters`, the current one active. */
  function ChapterList(p: PlayerState): (items: seq<ChapterItem>)
    ensures p.currentBook.None? ==> items == []
    ensures p.currentBook.Some? ==> |items| == Max(0, p.currentBook.value.totalChapters)
    ensures forall k :: 0 <= k < |items| ==>
      items[k].number == k + 1 && (items[k].active <==> k + 1 == p.currentChapter)
  {
    match p.currentBook
    case None => []
    case Some(book) =>
      seq(Max(0, book.totalChapters), k => ChapterItem(k + 1, k + 1 == p.currentChapter))
  }

  /** Exactly one item is active precisely when the current chapter is one of the listed chapters. */
  lemma ChapterListOneActive(p: PlayerState)
    requires p.currentBook.Some?
    ensures (exists k :: 0 <= k < |ChapterList(p)| && ChapterList(p)[k].active)
        <==> 1 <= p.currentChapter <= p.currentBook.value.totalChapters
    ensures forall j, k ::
      (0 <= j < |ChapterList(p)| && 0 <= k < |ChapterList(p)| && ChapterList(p)[j].active && ChapterList(p)[k].active)
      ==> j == k
  {
    var items := ChapterList(p);
    if 1 <= p.currentChapter <= p.currentBook.value.totalChapters {
      assert items[p.currentChapter - 1].active;
    }
  }

  /**
   A click on item `item` of the chapter list: loads that item's chapter and schedules a
   resume if playing. A position with no item is no click at all.
   */
  function SelectChapter(w: World, item: int, fetch: FetchOutcome, variant: Variant): (r: Step)
    ensures !(0 <= item < |ChapterList(w.player)|) ==> r == Step(w, None, None, false)
    ensures 0 <= item < |ChapterList(w.player)| ==>
      && r.world.player.currentChapter == item + 1
      && r.fetched == Some(GenerateAudioUrl(w.player.currentBook.value.audioSlug, item + 1))
      && (r.resumeScheduled <==> w.player.isPlaying)
  {
    var items := ChapterList(w.player);
    if 0 <= item < |items| then
      Load(w, items[item].number, fetch, variant).(resumeScheduled := w.player.isPlaying)
    else
      Step(w, None, None, false)
  }

  // ---------------------------------------------------------------------------
  // Transport
  // ---------------------------------------------------------------------------

  /** True when the element exists and its `src` has been set: the guard of `togglePlayPause`. */
  predicate HasSource(p: PlayerState) {
    p.audioElement.Some? && p.audioElement.value.src.Some?
  }

  /**
   `togglePlayPause`. Without an element or a source it only shows a toast. When playing
   it pauses and clears `isPlaying` at once; when paused, `isPlaying` becomes true only
   once `play()` resolves, and a rejection leaves it false and shows a toast.
   */
  function TogglePlayPause(w: World, play: PlayOutcome): (r: Step)
    ensures !HasSource(w.player) ==> r == Step(w, None, Some(NoAudioLoaded), false)
    ensures HasSource(w.player) && w.player.isPlaying ==>
      r.world == w.(player := w.player.(isPlaying := false)) && r.notice == None
    ensures HasSource(w.player) && !w.player.isPlaying && play == Resolved ==>
      r.world == w.(player := w.player.(isPlaying := true)) && r.notice == None
    ensures HasSource(w.player) && !w.player.isPlaying && play == Rejected ==>
      r.world == w && r.notice == Some(PlayFailed)
    ensures r.fetched == None && !r.resumeScheduled
  {
    if !HasSource(w.player) then
      Step(w, None, Some(NoAudioLoaded), false)
    else if w.player.isPlaying then
      Step(w.(player := w.player.(isPlaying := false)), None, None, false)
    else
      match play
      case Resolved => Step(w.(player := w.player.(isPlaying := true)), None, None, false)
      case Rejected => Step(w, None, Some(PlayFailed), false)
  }

  /** Pausing and then playing again, with `play()` resolving, restores the world. */
  lemma ToggleTwiceRestores(w: World, play: PlayOutcome)
    requires HasSource(w.player)
    ensures TogglePlayPause(TogglePlayPause(w, play).world, Resolved).world
         == if w.player.isPlaying || play == Resolved then w else w.(player := w.player.(isPlaying := true))
  {
  }

  /**
   The `ended` handler: clears `isPlaying`, then runs `nextChapter`. Because the flag is
   already false, the advance never schedules a resume: auto-advance does not auto-play.
   */
  function OnAudioEnded(w: World, fetch: FetchOutcome, variant: Variant): (r: Step)
    ensures !r.world.player.isPlaying
    ensures !r.resumeScheduled
    ensures var b := w.player.currentBook;
      b.Some? && w.player.currentChapter < b.value.totalChapters ==>
        r.world.player.currentChapter == w.player.currentChapter + 1
    ensures var b := w.player.currentBook;
      b.None? || w.player.currentChapter >= b.value.totalChapters ==>
        r.world == w.(player := w.player.(isPlaying := false)) && r.fetched == None
  {
    NextChapter(w.(player := w.player.(isPlaying := false)), fetch, variant)
  }

  /** The `error` handler: a toast and `isPlaying` cleared; nothing else changes. */
  function OnAudioError(w: World): (r: Step)
    ensures r.world == w.(player := w.player.(isPlaying := false))
    ensures r.notice == Some(AudioFileNotFound)
  {
    Step(w.(player := w.player.(isPlaying := false)), None, Some(AudioFileNotFound), false)
  }

  /** `speeds.indexOf(x)`: the first position of `x`, or -1 when absent. */
  function IndexOf(s: seq<real>, x: real): (i: int)
    ensures -1 <= i < |s|
    ensures i == -1 <==> x !in s
    ensures i >= 0 ==> s[i] == x && x !in s[..i]
  {
    if |s| == 0 then -1
    else if s[0] == x then 0
    else
      var j := IndexOf(s[1..], x);
      if j == -1 then -1
      else
        assert s[..j + 1] == [s[0]] + s[1..][..j];
        j + 1
  }

  /**
   `(currentIndex + 1) % speeds.length` for an index `indexOf` can return: past the last
   position it wraps to the first, and -1 becomes 0.
   */
  function NextIndex(i: int, n: nat): (j: nat)
    requires 0 < n && -1 <= i < n
    ensures j == (i + 1) % n
    ensures j < n
  {
    if i + 1 == n then 0 else i + 1
  }

  /**
   `cycleSpeed`: the speed after the current one in 1, 1.25, 1.5, 1.75, 2, wrapping to 1;
   a speed not in the list goes to 1. The element's rate follows when there is an element.
   */
  function CycleSpeed(w: World): (r: World)
    ensures r.player.playbackSpeed in Speeds
    ensures var k := IndexOf(Speeds, w.player.playbackSpeed);
      k >= 0 ==> r.player.playbackSpeed == Speeds[Succ(k)]
    ensures w.player.playbackSpeed !in Speeds ==> r.player.playbackSpeed == 1.0
    ensures r.player.audioElement.Some? <==> w.player.audioElement.Some?
    ensures r.player.audioElement.Some? ==> r.player.audioElement.value.playbackRate == r.player.playbackSpeed
    ensures r.player.audioElement
         == if w.player.audioElement.Some? then Some(w.player.audioElement.value.(playbackRate := r.player.playbackSpeed)) else None
    ensures r.player.(playbackSpeed := w.player.playbackSpeed, audioElement := w.player.audioElement) == w.player
    ensures r.blobs == w.blobs
  {
    var speed := Speeds[NextIndex(IndexOf(Speeds, w.player.playbackSpeed), |Speeds|)];
    var audio := match w.player.audioElement
      case None => None
      case Some(a) => Some(a.(playbackRate := speed));
    w.(player := w.player.(playbackSpeed := speed, audioElement := audio))
  }

  function CycleSpeedTimes(w: World, k: nat): World {
    if k == 0 then w else CycleSpeed(CycleSpeedTimes(w, k - 1))
  }

  /** The position after `k` in the speed list, wrapping after the last. */
  function Succ(k: nat): (j: nat)
    requires k < |Speeds|
    ensures j < |Speeds|
  {
    if k == |Speeds| - 1 then 0 else k + 1
  }

  /** Five steps along the speed list come back to the start. */
  lemma SuccFive(k: nat)
    requires k < |Speeds|
    ensures Succ(Succ(Succ(Succ(Succ(k))))) == k
  {
  }

  /** Five presses of the speed button return to a listed starting speed. */
  lemma FiveCyclesRestoreSpeed(w: World)
    requires w.player.playbackSpeed in Speeds
    ensures CycleSpeedTimes(w, 5).player.playbackSpeed == w.player.playbackSpeed
  {
    var k := IndexOf(Speeds, w.player.playbackSpeed);
    assert CycleSpeedTimes(w, 0) == w;
    CycleTimesStep(w, 0, k);
    CycleTimesStep(w, 1, Succ(k));
    CycleTimesStep(w, 2, Succ(Succ(k)));
    CycleTimesStep(w, 3, Succ(Succ(Succ(k))));
    CycleTimesStep(w, 4, Succ(Succ(Succ(Succ(k)))));
    SuccFive(k);
  }

  /** One more press after `m` presses moves one position along the list. */
  lemma CycleTimesStep(w: World, m: nat, k: nat)
    requires k < |Speeds| && CycleSpeedTimes(w, m).player.playbackSpeed == Speeds[k]
    ensures CycleSpeedTimes(w, m + 1).player.playbackSpeed == Speeds[Succ(k)]
  {
    CycleStep(CycleSpeedTimes(w, m), k);
  }

  /** From the speed at position `k`, one press gives the speed at the next position, cyclically. */
  lemma CycleStep(w: World, k: nat)
    requires k < |Speeds| && w.player.playbackSpeed == Speeds[k]
    ensures CycleSpeed(w).player.playbackSpeed == Speeds[Succ(k)]
  {
    SpeedIndex(k);
  }

  /** The listed speeds are distinct, so each one's position is where `indexOf` finds it. */
  lemma SpeedIndex(k: int)
    requires 0 <= k < |Speeds|
    ensures IndexOf(Speeds, Speeds[k]) == k
  {
    var i := IndexOf(Speeds, Speeds[k]);
    assert Speeds[i] == Speeds[k];
  }

  /** The `beforeunload` handler: revokes the current blob URL, if any. */
  function Unload(w: World): (r: World)
    ensures r.player == w.player
    ensures r.blobs.live == w.blobs.live - OptSet(w.player.blobUrl)
    ensures r.blobs.next == w.blobs.next
  {
    w.(blobs := w.blobs.(live := w.blobs.live - OptSet(w.player.blobUrl)))
  }

  // ---------------------------------------------------------------------------
  // Time formatting
  // ---------------------------------------------------------------------------

  /** A JavaScript number as `formatTime` can receive it. */
  datatype Number = NaN | Infinity(negative: bool) | Finite(value: real)

  /** Rounding toward zero. */
  function Trunc(x: real): int {
    if x >= 0.0 then x.Floor else -((-x).Floor)
  }

  /** JavaScript's `x % m` for `m > 0`: the remainder carries the sign of `x`. */
  function JsRemainder(x: real, m: real): real
    requires m > 0.0
  {
    x - m * Trunc(x / m) as real
  }

  /**
   `formatTime`: `"0:00"` for NaN; otherwise `Math.floor(s / 60)`, a colon, and
   `Math.floor(s % 60)` padded with zeros to two characters. There is no hours field.
   For an infinite input both parts come out as JavaScript renders them.
   */
  function FormatTime(seconds: Number): (r: string)
    ensures seconds.NaN? ==> r == "0:00"
  {
    match seconds
    case NaN => "0:00"
    case Infinity(negative) => (if negative then "-Infinity" else "Infinity") + ":" + "NaN"
    case Finite(s) => Clock((s / 60.0).Floor, JsRemainder(s, 60.0).Floor)
  }

  /** The template `${mins}:${secs.toString().padStart(2, '0')}`. */
  function Clock(mins: int, secs: int): string {
    Text.IntToDecimal(mins) + ":" + Text.PadStart(Text.IntToDecimal(secs), 2, '0')
  }

  /** The two-digit rendering of a number below 100. */
  function TwoDigits(n: nat): (r: string)
    requires n < 100
    ensures |r| == 2 && Text.AllDigits(r)
  {
    [Text.DigitChar(n / 10), Text.DigitChar(n % 10)]
  }

  /** Reading the two digits back gives the number. */
  lemma TwoDigitsReadBack(n: nat)
    requires n < 100
    ensures Text.DecimalValue(TwoDigits(n)) == n
  {
    var r := TwoDigits(n);
    assert r[..1] == [r[0]] && [r[0]][..0] == [];
    assert Text.DecimalValue([r[0]]) == n / 10;
    assert Text.DecimalValue(r) == Text.DecimalValue(r[..1]) * 10 + n % 10;
  }

  /**
   For a non-negative time, `formatTime` shows the whole seconds split into minutes
   and a two-digit seconds field: minutes are not capped at 59, so no hours appear.
   */
  lemma FormatTimeWholeSeconds(s: real)
    requires s >= 0.0
    ensures FormatTime(Finite(s)) == Text.NatToDecimal(s.Floor / 60) + ":" + TwoDigits(s.Floor % 60)
  {
    MinutesAndSeconds(s);
    FormatTimeParts(s, s.Floor / 60, s.Floor % 60);
  }

  /** Once the minutes and seconds of `s` are known, the rendering is their decimal and two-digit forms. */
  lemma FormatTimeParts(s: real, mins: nat, secs: nat)
    requires secs < 60
    requires (s / 60.0).Floor == mins && JsRemainder(s, 60.0).Floor == secs
    ensures FormatTime(Finite(s)) == Text.NatToDecimal(mins) + ":" + TwoDigits(secs)
  {
    FormatFinite(s);
    ClockDigits(mins, secs);
  }

  /** A finite time is rendered by the clock template from its minutes and seconds. */
  lemma FormatFinite(s: real)
    ensures FormatTime(Finite(s)) == Clock((s / 60.0).Floor, JsRemainder(s, 60.0).Floor)
  {
  }

  /** `s % 60` is below 60 in magnitude and carries the sign of `s`, as JavaScript's `%` does. */
  lemma JsRemainderSign(s: real)
    ensures s >= 0.0 ==> 0.0 <= JsRemainder(s, 60.0) < 60.0
    ensures s < 0.0 ==> -60.0 < JsRemainder(s, 60.0) <= 0.0
  {
  }

  lemma ClockDigits(mins: nat, secs: nat)
    requires secs < 60
    ensures Clock(mins, secs) == Text.NatToDecimal(mins) + ":" + TwoDigits(secs)
  {
    PadSeconds(secs);
  }

  /** For `s >= 0`, `floor(s / 60)` and `floor(s % 60)` are the quotient and remainder of the whole seconds by 60. */
  lemma MinutesAndSeconds(s: real)
    requires s >= 0.0
    ensures (s / 60.0).Floor == s.Floor / 60
    ensures JsRemainder(s, 60.0).Floor == s.Floor % 60
  {
    var f := s.Floor;
    var q := (s / 60.0).Floor;
    assert q >= 0;
    assert 60.0 * q as real <= s < 60.0 * q as real + 60.0;
    assert 60 * q <= f < 60 * q + 60;
    assert q == f / 60 && f - 60 * q == f % 60;
    var rem := JsRemainder(s, 60.0);
    assert rem == s - 60.0 * q as real;
    assert (f - 60 * q) as real <= rem < (f - 60 * q) as real + 1.0;
  }

  /** Padding the decimal rendering of a seconds count below 60 gives its two-digit form. */
  lemma PadSeconds(secs: nat)
    requires secs < 60
    ensures Text.PadStart(Text.IntToDecimal(secs), 2, '0') == TwoDigits(secs)
  {
    if secs < 10 {
      PadOneDigit(secs);
    } else {
      PadTwoDigits(secs / 10, secs % 10);
    }
  }

  lemma PadOneDigit(d: nat)
    requires d < 10
    ensures Text.PadStart(Text.IntToDecimal(d), 2, '0') == TwoDigits(d)
  {
    assert Text.NatToDecimal(d) == [Text.DigitChar(d)];
    assert Text.PadStart([Text.DigitChar(d)], 2, '0') == ['0', Text.DigitChar(d)];
  }

  lemma PadTwoDigits(tens: nat, units: nat)
    requires 1 <= tens < 10 && units < 10
    ensures Text.PadStart(Text.IntToDecimal(10 * tens + units), 2, '0') == TwoDigits(10 * tens + units)
  {
    var n := 10 * tens + units;
    assert n / 10 == tens && n % 10 == units;
    assert Text.NatToDecimal(tens) == [Text.DigitChar(tens)];
    assert Text.NatToDecimal(n) == [Text.DigitChar(tens), Text.DigitChar(units)];
  }

  /** Sample values: an hour and more still renders as minutes, so 3725 seconds show as `62:05`. */
  lemma FormatTimeOverAnHour(s: real)
    requires 3725.0 <= s < 3726.0
    ensures FormatTime(Finite(s)) == "62:05"
  {
    MinutesAndSeconds(s);
    assert s.Floor == 3725;
    FormatTimeParts(s, 62, 5);
    Rendered62();
  }

  lemma Rendered62()
    ensures Text.NatToDecimal(62) + ":" + TwoDigits(5) == "62:05"
  {
    assert TwoDigits(5) == "05";
    assert Text.NatToDecimal(6) == "6";
    assert Text.NatToDecimal(62) == Text.NatToDecimal(6) + [Text.DigitChar(2)];
  }

  lemma FormatTimeUnderAMinute(s: real)
    requires 45.0 <= s < 46.0
    ensures FormatTime(Finite(s)) == "0:45"
  {
    MinutesAndSeconds(s);
    assert s.Floor == 45;
    FormatTimeParts(s, 0, 45);
    Rendered045();
  }

  lemma Rendered045()
    ensures Text.NatToDecimal(0) + ":" + TwoDigits(45) == "0:45"
  {
    assert TwoDigits(45) == "45";
  }

  // ---------------------------------------------------------------------------
  // Whole-session invariants
  // ---------------------------------------------------------------------------

  /** The events the player reacts to, each with the outcome the environment chose. */
  datatype Event =
    | OpenBook(bookId: string, bookData: Book, fetch: FetchOutcome)
    | PrevClicked(fetch: FetchOutcome)
    | NextClicked(fetch: FetchOutcome)
    | ChapterClicked(item: int, fetch: FetchOutcome)
    | PlayPauseClicked(play: PlayOutcome)
    | AudioEnded(fetch: FetchOutcome)
    | AudioFailed
    | SpeedClicked
    | PageUnload

  /** One event handled by the handlers, each chapter load being the given variant of `loadChapter`. */
  function Dispatch(w: World, e: Event, variant: Variant): World {
    match e
    case OpenBook(id, data, fetch) => PlayAudiobook(w, id, data, fetch, variant).world
    case PrevClicked(fetch) => PreviousChapter(w, fetch, variant).world
    case NextClicked(fetch) => NextChapter(w, fetch, variant).world
    case ChapterClicked(item, fetch) => SelectChapter(w, item, fetch, variant).world
    case PlayPauseClicked(play) => TogglePlayPause(w, play).world
    case AudioEnded(fetch) => OnAudioEnded(w, fetch, variant).world
    case AudioFailed => OnAudioError(w).world
    case SpeedClicked => CycleSpeed(w)
    case PageUnload => Unload(w)
  }

  /** The world after handling `events` one at a time, in order. */
  function Run(w: World, events: seq<Event>, variant: Variant): World
    decreases |events|
  {
    if |events| == 0 then w else Run(Dispatch(w, events[0], variant), events[1..], variant)
  }

  /** The chapter index is at least 1, stays 1 without a book, and never passes the last chapter of a book that has chapters. */
  ghost predicate ChapterInRange(p: PlayerState) {
    && 1 <= p.currentChapter
    && (p.currentBook.None? ==> p.currentChapter == 1)
    && (p.currentBook.Some? ==> p.currentChapter <= Max(1, p.currentBook.value.totalChapters))
  }

  /**
   The blob discipline: every live handle is `blobUrl` (so at most one is live), every
   handle ever issued is below `next`, the element only ever plays `blobUrl`, and the
   player is only marked playing when the element has a source.
   */
  ghost predicate HandleDiscipline(w: World) {
    && w.blobs.live <= OptSet(w.player.blobUrl)
    && (w.player.blobUrl.Some? ==> w.player.blobUrl.value < w.blobs.next)
    && (HasSource(w.player) ==> w.player.audioElement.value.src == w.player.blobUrl)
    && (w.player.isPlaying ==> HasSource(w.player))
  }

  /** The element plays at the speed the player shows: its `playbackRate` is `playbackSpeed`. */
  ghost predicate RateFollowsSpeed(p: PlayerState) {
    p.audioElement.Some? ==> p.audioElement.value.playbackRate == p.playbackSpeed
  }

  /**
   The session invariant under a load variant: the chapter range and the blob discipline
   hold for player.js as written; the element's rate follows the shown speed only once
   loads re-apply it.
   */
  ghost predicate Valid(w: World, variant: Variant) {
    && ChapterInRange(w.player)
    && HandleDiscipline(w)
    && (variant == Corrected ==> RateFollowsSpeed(w.player))
  }

  lemma InitialValid(audioFound: bool, variant: Variant)
    ensures Valid(Initial(audioFound), variant)
  {
  }

  /** A chapter load keeps the blob discipline: it revokes `blobUrl` and binds at most one fresh handle. */
  lemma LoadKeepsHandles(w: World, n: int, fetch: FetchOutcome, variant: Variant)
    requires HandleDiscipline(w)
    ensures HandleDiscipline(Load(w, n, fetch, variant).world)
  {
  }

  /** The corrected chapter load keeps the element at the chosen speed. */
  lemma LoadKeepsRate(w: World, n: int, fetch: FetchOutcome)
    requires RateFollowsSpeed(w.player)
    ensures RateFollowsSpeed(LoadChapter(w, n, fetch).world.player)
  {
  }

  /** A chapter load of either variant keeps the session invariant of that variant. */
  lemma LoadValid(w: World, n: int, fetch: FetchOutcome, variant: Variant)
    requires HandleDiscipline(w) && (variant == Corrected ==> RateFollowsSpeed(w.player))
    ensures HandleDiscipline(Load(w, n, fetch, variant).world)
    ensures variant == Corrected ==> RateFollowsSpeed(Load(w, n, fetch, variant).world.player)
  {
    LoadKeepsHandles(w, n, fetch, variant);
    if variant == Corrected {
      LoadKeepsRate(w, n, fetch);
    }
  }

  lemma OpenBookValid(w: World, id: string, data: Book, fetch: FetchOutcome, variant: Variant)
    requires Valid(w, variant)
    ensures Valid(PlayAudiobook(w, id, data, fetch, variant).world, variant)
  {
    LoadValid(w.(player := w.player.(currentBook := Some(WithId(id, data)), currentChapter := 1)), 1, fetch, variant);
  }

  lemma PreviousValid(w: World, fetch: FetchOutcome, variant: Variant)
    requires Valid(w, variant)
    ensures Valid(PreviousChapter(w, fetch, variant).world, variant)
  {
    if w.player.currentChapter > 1 {
      LoadValid(w, w.player.currentChapter - 1, fetch, variant);
    }
  }

  lemma NextValid(w: World, fetch: FetchOutcome, variant: Variant)
    requires Valid(w, variant)
    ensures Valid(NextChapter(w, fetch, variant).world, variant)
  {
    var p := w.player;
    if p.currentBook.Some? && p.currentChapter < p.currentBook.value.totalChapters {
      LoadValid(w, p.currentChapter + 1, fetch, variant);
    }
  }

  lemma SelectValid(w: World, item: int, fetch: FetchOutcome, variant: Variant)
    requires Valid(w, variant)
    ensures Valid(SelectChapter(w, item, fetch, variant).world, variant)
  {
    if 0 <= item < |ChapterList(w.player)| {
      LoadValid(w, item + 1, fetch, variant);
    }
  }

  /** Every handler keeps the session valid, for player.js as written and for the corrected load. */
  lemma DispatchValid(w: World, e: Event, variant: Variant)
    requires Valid(w, variant)
    ensures Valid(Dispatch(w, e, variant), variant)
  {
    match e
    case OpenBook(id, data, fetch) => OpenBookValid(w, id, data, fetch, variant);
    case PrevClicked(fetch) => PreviousValid(w, fetch, variant);
    case NextClicked(fetch) => NextValid(w, fetch, variant);
    case ChapterClicked(item, fetch) => SelectValid(w, item, fetch, variant);
    case AudioEnded(fetch) => NextValid(w.(player := w.player.(isPlaying := false)), fetch, variant);
    case PlayPauseClicked(_) =>
    case AudioFailed =>
    case SpeedClicked =>
    case PageUnload =>
  }

  /** Any run of events from a valid state ends in a valid state. */
  lemma {:induction false} RunValid(w: World, events: seq<Event>, variant: Variant)
    requires Valid(w, variant)
    ensures Valid(Run(w, events, variant), variant)
    decreases |events|
  {
    if |events| > 0 {
      DispatchValid(w, events[0], variant);
      RunValid(Dispatch(w, events[0], variant), events[1..], variant);
    }
  }

  /**
   At any point of a session at most one blob URL is live, and a live one is `blobUrl`:
   for player.js as written and for the corrected load alike.
   */
  lemma AtMostOneLiveHandle(audioFound: bool, events: seq<Event>, variant: Variant)
    ensures var w := Run(Initial(audioFound), events, variant);
      |w.blobs.live| <= 1 && forall h :: h in w.blobs.live ==> w.player.blobUrl == Some(h)
  {
    InitialValid(audioFound, variant);
    RunValid(Initial(audioFound), events, variant);
    var w := Run(Initial(audioFound), events, variant);
    if h :| h in w.blobs.live {
      assert w.blobs.live == {h};
    } else {
      assert w.blobs.live == {};
    }
  }

  /** With the corrected load, at any point of a session the element plays at the speed the player shows. */
  lemma RateAlwaysFollowsSpeed(audioFound: bool, events: seq<Event>)
    ensures var p := Run(Initial(audioFound), events, Corrected).player;
      p.audioElement.Some? ==> p.audioElement.value.playbackRate == p.playbackSpeed
  {
    InitialValid(audioFound, Corrected);
    RunValid(Initial(audioFound), events, Corrected);
  }

  /**
   A session of player.js as written that loses the speed: press the speed button once
   (1.25x), then open a book whose first chapter loads. The element ends at 1x.
   */
  lemma AsWrittenRunDropsSpeed(id: string, book: Book)
    ensures var p := Run(Initial(true), [SpeedClicked, OpenBook(id, book, Fetched)], AsWritten).player;
      && p.playbackSpeed == 1.25
      && p.audioElement.Some?
      && p.audioElement.value.playbackRate == 1.0
  {
    var w0 := Initial(true);
    var w1 := Dispatch(w0, SpeedClicked, AsWritten);
    SpeedIndex(0);
    assert w1.player.playbackSpeed == 1.25;
    var w2 := Dispatch(w1, OpenBook(id, book, Fetched), AsWritten);
    assert Run(w0, [SpeedClicked, OpenBook(id, book, Fetched)], AsWritten) == Run(w1, [OpenBook(id, book, Fetched)], AsWritten);
    assert Run(w1, [OpenBook(id, book, Fetched)], AsWritten) == Run(w2, [], AsWritten);
  }

  /** After a successful load exactly the new handle is live; after a failed one none is, and `blobUrl` still names the revoked handle. */
  lemma LoadLeavesOnlyNewHandle(w: World, n: int, fetch: FetchOutcome, variant: Variant)
    requires HandleDiscipline(w) && w.player.currentBook.Some?
    ensures var r := Load(w, n, fetch, variant).world;
      && (fetch == Fetched ==>
            && r.player.blobUrl == Some(w.blobs.next) && r.blobs.next == w.blobs.next + 1
            && r.blobs.live == {w.blobs.next} && w.blobs.next !in w.blobs.live)
      && (fetch != Fetched ==> r.blobs.live == {} && r.player.blobUrl == w.player.blobUrl)
  {
  }

  /** Unloading a valid session leaves no blob URL live. */
  lemma UnloadReleasesAll(w: World)
    requires HandleDiscipline(w)
    ensures Unload(w).blobs.live == {}
  {
  }
}

=== FILE: seqs.dfy ===
/**
 The two list operations the library screens are built from: `Array.prototype.filter`
 and a stable `Array.prototype.sort` whose comparator orders by a numeric key,
 largest first (`(a, b) => key(b) - key(a)`).
 */
module Seqs {

  /** `s.filter(f)`: the elements satisfying `f`, each as often as in `s`, in their original order. */
  function Filter<T(!new)>(f: T -> bool, s: seq<T>): (r: seq<T>)
    ensures |r| <= |s|
  {
    if |s| == 0 then []
    else if f(s[0]) then [s[0]] + Filter(f, s[1..])
    else Filter(f, s[1..])
  }

  /** The filtered sequence holds exactly the elements of `s` that satisfy `f`. */
  lemma {:induction false} FilterMembers<T(!new)>(f: T -> bool, s: seq<T>)
    ensures forall x :: x in Filter(f, s) <==> x in s && f(x)
    decreases |s|
  {
    if |s| > 0 {
      FilterMembers(f, s[1..]);
      assert s == [s[0]] + s[1..];
    }
  }

  /** The filtered sequence holds each passing element exactly as often as the original does. */
  lemma {:induction false} FilterCounts<T(!new)>(f: T -> bool, s: seq<T>)
    ensures forall x :: multiset(Filter(f, s))[x] == if f(x) then multiset(s)[x] else 0
    decreases |s|
  {
    if |s| > 0 {
      FilterCounts(f, s[1..]);
      assert s == [s[0]] + s[1..];
    }
  }

  /** Filtering distributes over concatenation: kept elements keep their relative order. */
  lemma {:induction false} FilterConcat<T(!new)>(f: T -> bool, a: seq<T>, b: seq<T>)
    ensures Filter(f, a + b) == Filter(f, a) + Filter(f, b)
    decreases |a|
  {
    if |a| > 0 {
      FilterConcat(f, a[1..], b);
      assert a + b == [a[0]] + (a[1..] + b);
      FilterCons(f, a[0], a[1..] + b);
      assert a == [a[0]] + a[1..];
      FilterCons(f, a[0], a[1..]);
    } else {
      assert a + b == b;
    }
  }

  /** Filtering a one-element prefix keeps it exactly when it passes. */
  lemma FilterCons<T(!new)>(f: T -> bool, x: T, s: seq<T>)
    ensures Filter(f, [x] + s) == if f(x) then [x] + Filter(f, s) else Filter(f, s)
  {
    assert ([x] + s)[1..] == s;
  }

  /** A filter that every element passes returns the sequence itself. */
  lemma {:induction false} FilterAllPass<T(!new)>(f: T -> bool, s: seq<T>)
    requires forall x :: x in s ==> f(x)
    ensures Filter(f, s) == s
    decreases |s|
  {
    if |s| > 0 {
      FilterAllPass(f, s[1..]);
    }
  }

  /** A filter that no element passes returns the empty sequence. */
  lemma FilterNonePass<T(!new)>(f: T -> bool, s: seq<T>)
    requires forall x :: x in s ==> !f(x)
    ensures Filter(f, s) == []
  {
    FilterMembers(f, s);
    if Filter(f, s) != [] {
      assert Filter(f, s)[0] in Filter(f, s);
    }
  }

  /** When exactly the element at position `i` passes, the filter returns just that element. */
  lemma {:induction false} FilterSingle<T(!new)>(f: T -> bool, s: seq<T>, i: nat)
    requires i < |s| && f(s[i])
    requires forall j :: 0 <= j < |s| && j != i ==> !f(s[j])
    ensures Filter(f, s) == [s[i]]
    decreases |s|
  {
    assert s == [s[0]] + s[1..];
    FilterCons(f, s[0], s[1..]);
    if i == 0 {
      forall x | x in s[1..]
        ensures !f(x)
      {
        var j :| 0 <= j < |s| - 1 && s[1..][j] == x;
        assert s[j + 1] == x;
      }
      FilterNonePass(f, s[1..]);
    } else {
      FilterSingle(f, s[1..], i - 1);
    }
  }

  /** No element has a larger key than an element before it. */
  ghost predicate SortedDesc<T(!new)>(key: T -> real, s: seq<T>) {
    forall i, j :: 0 <= i < j < |s| ==> key(s[i]) >= key(s[j])
  }

  /**
   Inserts `x` in front of the first element whose key is not larger than its own,
   so `x` lands before every element with an equal key.
   */
  function InsertDesc<T(!new)>(key: T -> real, x: T, s: seq<T>): (r: seq<T>)
    requires SortedDesc(key, s)
    ensures multiset(r) == multiset(s) + multiset{x}
    ensures SortedDesc(key, r)
    decreases |s|
  {
    if |s| == 0 then [x]
    else if key(x) >= key(s[0]) then
      SortedCons(key, x, s);
      [x] + s
    else
      var t := InsertDesc(key, x, s[1..]);
      forall y | y in t
        ensures key(s[0]) >= key(y)
      {
        assert y in multiset(t);
        if y != x {
          assert y in multiset(s[1..]);
          var j :| 0 <= j < |s[1..]| && s[1..][j] == y;
          assert s[j + 1] == y;
        }
      }
      SortedCons(key, s[0], t);
      assert s == [s[0]] + s[1..];
      [s[0]] + t
  }

  /** Putting in front an element whose key is at least every other key keeps a sequence sorted. */
  lemma SortedCons<T(!new)>(key: T -> real, a: T, t: seq<T>)
    requires SortedDesc(key, t)
    requires forall y :: y in t ==> key(a) >= key(y)
    ensures SortedDesc(key, [a] + t)
  {
    var r := [a] + t;
    forall i, j | 0 <= i < j < |r|
      ensures key(r[i]) >= key(r[j])
    {
      if i == 0 {
        assert r[j] == t[j - 1];
      } else {
        assert r[i] == t[i - 1] && r[j] == t[j - 1];
      }
    }
  }

  /** The stable sort by descending key: insertion sort, inserting earlier elements last. */
  function SortDesc<T(!new)>(key: T -> real, s: seq<T>): (r: seq<T>)
    ensures multiset(r) == multiset(s)
    ensures SortedDesc(key, r)
    decreases |s|
  {
    if |s| == 0 then []
    else
      assert s == [s[0]] + s[1..];
      InsertDesc(key, s[0], SortDesc(key, s[1..]))
  }

  /** The elements whose key equals `k`. */
  function KeyIs<T(!new)>(key: T -> real, k: real): T -> bool {
    y => key(y) == k
  }

  lemma InsertStable<T(!new)>(key: T -> real, k: real, x: T, s: seq<T>)
    requires SortedDesc(key, s)
    ensures Filter(KeyIs(key, k), InsertDesc(key, x, s))
         == if key(x) == k then [x] + Filter(KeyIs(key, k), s) else Filter(KeyIs(key, k), s)
    decreases |s|
  {
    var f := KeyIs(key, k);
    if |s| > 0 {
      FilterCons(f, s[0], s[1..]);
      assert s == [s[0]] + s[1..];
      if key(x) >= key(s[0]) {
        FilterCons(f, x, s);
      } else {
        InsertStable(key, k, x, s[1..]);
        FilterCons(f, s[0], InsertDesc(key, x, s[1..]));
      }
    } else {
      FilterCons(f, x, s);
    }
  }

  /**
   Stability: among elements with the same key, the sorted sequence keeps their
   original order (the sort is the one `Array.prototype.sort` is required to be).
   */
  lemma {:induction false} SortStable<T(!new)>(key: T -> real, k: real, s: seq<T>)
    ensures Filter(KeyIs(key, k), SortDesc(key, s)) == Filter(KeyIs(key, k), s)
    decreases |s|
  {
    if |s| > 0 {
      var f, t := KeyIs(key, k), SortDesc(key, s[1..]);
      calc {
        Filter(f, SortDesc(key, s));
        Filter(f, InsertDesc(key, s[0], t));
        { InsertStable(key, k, s[0], t); }
        if key(s[0]) == k then [s[0]] + Filter(f, t) else Filter(f, t);
        { SortStable(key, k, s[1..]); }
        if key(s[0]) == k then [s[0]] + Filter(f, s[1..]) else Filter(f, s[1..]);
        Filter(f, s);
      }
    }
  }
}

=== FILE: service_worker.dfy ===
/**
 The cache policy of service-worker.js. `CacheStorage` is a sequence of named caches in
 creation order (the order `caches.match` searches them); each cache maps a request URL
 to the stored response. The `install`, `activate` and `fetch` handlers are atomic
 steps; what the network answers is an input.
 */
module ServiceWorker {
  import opened Optional
  import Text
  import Seqs

  const CacheName: string := "dreamfm-v1.0.3"

  const StaticCache: seq<string> := ["/", "/index.html", "/style.css", "/app.js", "/player.js", "/manifest.json"]

  /** The alternatives of the pattern `/\.(mp3|jpg|jpeg|png|webp|svg)$/`. */
  const CachedExtensions: seq<string> := ["mp3", "jpg", "jpeg", "png", "webp", "svg"]

  datatype ResponseType = Basic | Cors | Default | Error | Opaque | OpaqueRedirect

  datatype Response = Response(status: int, kind: ResponseType, body: string)

  datatype Request = Request(verb: string, url: string)

  /** One named cache: request URL to stored response. */
  datatype Cache = Cache(name: string, entries: map<string, Response>)

  /** `CacheStorage`: the caches in creation order. */
  type Storage = seq<Cache>

  /** What the page receives from `respondWith`: a response, or a network error when `fetch` rejected. */
  datatype Reply = Respond(response: Response) | NetworkError

  /** What `fetch(event.request)` does: resolves with a response or rejects. */
  datatype NetOutcome = Got(response: Response) | Unreachable

  // ---------------------------------------------------------------------------
  // The Cache API
  // ---------------------------------------------------------------------------

  /** No two caches share a name, as `CacheStorage` guarantees. */
  ghost predicate DistinctNames(st: Storage) {
    forall i, j :: 0 <= i < j < |st| ==> st[i].name != st[j].name
  }

  /** The position of the cache called `name`, if there is one. */
  function Find(st: Storage, name: string): (r: Option<nat>)
    ensures r.Some? ==> r.value < |st| && st[r.value].name == name
    ensures r.None? <==> forall i :: 0 <= i < |st| ==> st[i].name != name
  {
    if |st| == 0 then None
    else if st[|st| - 1].name == name then Some(|st| - 1)
    else Find(st[..|st| - 1], name)
  }

  /** The response cache `name` holds for `url`, if the cache exists and holds one. */
  function Get(st: Storage, name: string, url: string): Option<Response> {
    match Find(st, name)
    case None => None
    case Some(i) => if url in st[i].entries then Some(st[i].entries[url]) else None
  }

  /** `caches.open(name)`: the existing cache, or a new empty one appended last. */
  function Open(st: Storage, name: string): (r: Storage)
    requires DistinctNames(st)
    ensures DistinctNames(r)
    ensures Find(r, name).Some?
    ensures forall n, u :: Get(r, n, u) == Get(st, n, u)
    ensures Find(st, name).Some? ==> r == st
    ensures Find(st, name).None? ==> r == st + [Cache(name, map[])]
  {
    if Find(st, name).Some? then st
    else
      var r := st + [Cache(name, map[])];
      assert forall n :: n != name ==> Find(r, n) == Find(st, n) by {
        forall n | n != name
          ensures Find(r, n) == Find(st, n)
        {
          assert r[..|r| - 1] == st;
        }
      }
      r
  }

  /** Adds `more` to the entries of cache `name`, which must exist; later keys overwrite. */
  function PutEntries(st: Storage, name: string, more: map<string, Response>): (r: Storage)
    requires DistinctNames(st) && Find(st, name).Some?
    ensures DistinctNames(r)
    ensures forall u :: u in more ==> Get(r, name, u) == Some(more[u])
    ensures forall n, u :: (n != name || u !in more) ==> Get(r, n, u) == Get(st, n, u)
    ensures forall n :: Find(r, n) == Find(st, n)
    ensures |r| == |st|
    ensures forall j :: 0 <= j < |st| && j != Find(st, name).value ==> r[j] == st[j]
    ensures r[Find(st, name).value].entries == st[Find(st, name).value].entries + more
  {
    var i := Find(st, name).value;
    var r := st[i := Cache(name, st[i].entries + more)];
    FindAfterUpdate(st, i, r[i]);
    r
  }

  /** Replacing the entries of one cache leaves every cache findable where it was. */
  lemma FindAfterUpdate(st: Storage, i: nat, c: Cache)
    requires DistinctNames(st) && i < |st| && c.name == st[i].name
    ensures DistinctNames(st[i := c])
    ensures forall n :: Find(st[i := c], n) == Find(st, n)
  {
    var r := st[i := c];
    forall n
      ensures Find(r, n) == Find(st, n)
    {
      FindUnique(st, n);
      FindUnique(r, n);
    }
  }

  /** With distinct names, `Find` returns the one position holding the name. */
  lemma FindUnique(st: Storage, name: string)
    requires DistinctNames(st)
    ensures forall i :: 0 <= i < |st| && st[i].name == name ==> Find(st, name) == Some(i)
  {
  }

  /**
   `caches.match(request)`: the response of the first cache, in creation order, that
   holds the request's URL. Only GET requests match.
   */
  function Match(st: Storage, req: Request): (r: Option<Response>)
    ensures req.verb != "GET" ==> r == None
    ensures r.Some? ==> exists i :: FirstHolder(st, req.url, i) && st[i].entries[req.url] == r.value
    ensures r.None? && req.verb == "GET" ==> forall i :: 0 <= i < |st| ==> req.url !in st[i].entries
  {
    if req.verb != "GET" || |st| == 0 then None
    else if req.url in st[0].entries then
      assert FirstHolder(st, req.url, 0);
      Some(st[0].entries[req.url])
    else
      var r := Match(st[1..], req);
      assert r.Some? ==> exists i :: FirstHolder(st, req.url, i) && st[i].entries[req.url] == r.value by {
        if r.Some? {
          var j :| FirstHolder(st[1..], req.url, j) && st[1..][j].entries[req.url] == r.value;
          FirstHolderShift(st, req.url, j);
        }
      }
      assert r.None? ==> forall i :: 1 <= i < |st| ==> req.url !in st[i].entries by {
        if r.None? {
          forall i | 1 <= i < |st|
            ensures req.url !in st[i].entries
          {
            assert st[i] == st[1..][i - 1];
          }
        }
      }
      r
  }

  /** The cache at position `i` holds `url` and no earlier cache does. */
  ghost predicate FirstHolder(st: Storage, url: string, i: int) {
    0 <= i < |st| && url in st[i].entries && forall j :: 0 <= j < i ==> url !in st[j].entries
  }

  /** A first holder after the first cache, which does not hold the URL, is a first holder one position later in the whole storage. */
  lemma FirstHolderShift(st: Storage, url: string, j: int)
    requires |st| > 0 && url !in st[0].entries && FirstHolder(st[1..], url, j)
    ensures FirstHolder(st, url, j + 1) && st[j + 1] == st[1..][j]
  {
    forall k | 1 <= k < j + 1
      ensures url !in st[k].entries
    {
      assert st[k] == st[1..][k - 1];
    }
  }

  // ---------------------------------------------------------------------------
  // install
  // ---------------------------------------------------------------------------

  /** `cache.addAll` accepts a response when it is not a network error and its status is ok (200-299) but not 206. */
  predicate AddAllAccepts(resp: Response) {
    resp.kind != Error && 200 <= resp.status <= 299 && resp.status != 206
  }

  /** The static list can be cached: every URL was fetched and every response accepted. */
  predicate StaticFetched(net: map<string, Response>) {
    forall u :: u in StaticCache ==> u in net && AddAllAccepts(net[u])
  }

  datatype InstallResult = InstallResult(storage: Storage, installed: bool)

  /**
   The `install` handler: opens `CacheName` and runs `addAll(STATIC_CACHE)`, which stores
   every response or, if one fetch fails or is refused, none; the install then fails.
   `net` holds the responses the network gives for the static URLs it can reach.
   */
  function Install(st: Storage, net: map<string, Response>): (r: InstallResult)
    requires DistinctNames(st)
    ensures DistinctNames(r.storage)
    ensures r.installed <==> StaticFetched(net)
    ensures r.installed ==> forall u :: u in StaticCache ==> Get(r.storage, CacheName, u) == Some(net[u])
    ensures forall n, u :: (n != CacheName || u !in StaticCache || !r.installed) ==>
      Get(r.storage, n, u) == Get(st, n, u)
    ensures Find(r.storage, CacheName).Some?
  {
    var withCache := Open(st, CacheName);
    if StaticFetched(net) then
      InstallResult(PutEntries(withCache, CacheName, map u | u in StaticCache :: net[u]), true)
    else
      InstallResult(withCache, false)
  }

  // ---------------------------------------------------------------------------
  // activate
  // ---------------------------------------------------------------------------

  function IsCurrent(c: Cache): bool {
    c.name == CacheName
  }

  /** The `activate` handler: deletes every cache whose name is not `CacheName`. */
  function Activate(st: Storage): (r: Storage)
    requires DistinctNames(st)
    ensures DistinctNames(r)
    ensures forall i :: 0 <= i < |r| ==> r[i].name == CacheName
    ensures forall u :: Get(r, CacheName, u) == Get(st, CacheName, u)
    ensures Find(r, CacheName).Some? <==> Find(st, CacheName).Some?
  {
    var r := Seqs.Filter(IsCurrent, st);
    Seqs.FilterMembers(IsCurrent, st);
    if Find(st, CacheName).Some? then
      var i := Find(st, CacheName).value;
      FindUnique(st, CacheName);
      OnlyCurrent(st, i);
      r
    else
      Seqs.FilterNonePass(IsCurrent, st);
      r
  }

  /** When the current cache sits at position `i`, keeping the current caches keeps exactly that one. */
  lemma OnlyCurrent(st: Storage, i: nat)
    requires DistinctNames(st) && i < |st| && st[i].name == CacheName
    ensures Seqs.Filter(IsCurrent, st) == [st[i]]
  {
    Seqs.FilterSingle(IsCurrent, st, i);
  }

  /** Activating twice is activating once. */
  lemma ActivateIdempotent(st: Storage)
    requires DistinctNames(st)
    ensures Activate(Activate(st)) == Activate(st)
  {
    Seqs.FilterAllPass(IsCurrent, Activate(st));
  }

  /**
   Once a successful install has been activated, only the current cache is left, and a
   GET of any static URL is answered from it, without the network.
   */
  lemma ActivatedServesStatic(st: Storage, net: map<string, Response>, url: string, online: NetOutcome)
    requires DistinctNames(st) && StaticFetched(net) && url in StaticCache
    ensures var active := Activate(Install(st, net).storage);
      && |active| == 1
      && HandleFetch(active, Request("GET", url), online) == FetchResult(active, Respond(net[url]), false)
  {
    var active := Activate(Install(st, net).storage);
    var i := Find(active, CacheName).value;
    MatchUnique(active, Request("GET", url), i);
  }

  // ---------------------------------------------------------------------------
  // fetch
  // ---------------------------------------------------------------------------

  /** The URL ends with one of the cached extensions, matched case-sensitively at the very end. */
  predicate CacheableUrl(url: string) {
    exists e :: e in CachedExtensions && Text.EndsWith(url, "." + e)
  }

  /** The response passes the first guard of the `fetch` handler. */
  predicate Storable(resp: Response) {
    resp.status == 200 && resp.kind != Opaque
  }

  datatype FetchResult = FetchResult(storage: Storage, reply: Reply, networkUsed: bool)

  /**
   The `fetch` handler. A cached response is returned without asking the network.
   Otherwise the network's response is returned unchanged, and when it has status 200,
   is not opaque and the URL ends with a cached extension, `CacheName` is opened and
   the response put under the request; `cache.put` refuses a non-GET request.
   */
  function HandleFetch(st: Storage, req: Request, net: NetOutcome): (r: FetchResult)
    requires DistinctNames(st)
    ensures DistinctNames(r.storage)
    ensures Match(st, req).Some? ==> r == FetchResult(st, Respond(Match(st, req).value), false)
    ensures Match(st, req).None? ==> r.networkUsed
    ensures Match(st, req).None? && net.Unreachable? ==> r.reply == NetworkError && r.storage == st
    ensures Match(st, req).None? && net.Got? ==> r.reply == Respond(net.response)
    ensures forall n, u :: (n != CacheName || u != req.url) ==> Get(r.storage, n, u) == Get(st, n, u)
  {
    match Match(st, req)
    case Some(cached) => FetchResult(st, Respond(cached), false)
    case None =>
      match net
      case Unreachable => FetchResult(st, NetworkError, true)
      case Got(resp) =>
        if !Storable(resp) then FetchResult(st, Respond(resp), true)
        else if !CacheableUrl(req.url) then FetchResult(st, Respond(resp), true)
        else
          var withCache := Open(st, CacheName);
          var stored := if req.verb == "GET" then PutEntries(withCache, CacheName, map[req.url := resp]) else withCache;
          FetchResult(stored, Respond(resp), true)
  }

  /** The conditions under which a network response is written to the cache. */
  predicate StoredOnMiss(req: Request, resp: Response) {
    Storable(resp) && CacheableUrl(req.url) && req.verb == "GET"
  }

  /**
   On a miss the response is stored under the request in `CacheName` exactly when it is
   a 200, non-opaque response for a GET of a cacheable URL; otherwise no entry changes.
   */
  lemma FetchStoresIff(st: Storage, req: Request, resp: Response)
    requires DistinctNames(st) && Match(st, req).None?
    ensures var r := HandleFetch(st, req, Got(resp));
      && (StoredOnMiss(req, resp) ==> Get(r.storage, CacheName, req.url) == Some(resp))
      && (!StoredOnMiss(req, resp) ==> forall n, u :: Get(r.storage, n, u) == Get(st, n, u))
  {
  }

  /** After a response is stored, the same request is answered from the cache without the network. */
  lemma StoredThenHit(st: Storage, req: Request, resp: Response, net: NetOutcome)
    requires DistinctNames(st) && Match(st, req).None? && StoredOnMiss(req, resp)
    ensures var st' := HandleFetch(st, req, Got(resp)).storage;
      HandleFetch(st', req, net) == FetchResult(st', Respond(resp), false)
  {
    var withCache := Open(st, CacheName);
    var i := Find(withCache, CacheName).value;
    var st' := PutEntries(withCache, CacheName, map[req.url := resp]);
    assert st' == HandleFetch(st, req, Got(resp)).storage;
    FindUnique(withCache, CacheName);
    forall j | 0 <= j < |st'| && j != i
      ensures req.url !in st'[j].entries
    {
      assert j < |st|;
      assert st'[j] == st[j];
    }
    MatchUnique(st', req, i);
  }

  /** When only the cache at position `i` holds the URL, `caches.match` answers from it. */
  lemma MatchUnique(st: Storage, req: Request, i: nat)
    requires req.verb == "GET" && i < |st| && req.url in st[i].entries
    requires forall j :: 0 <= j < |st| && j != i ==> req.url !in st[j].entries
    ensures Match(st, req) == Some(st[i].entries[req.url])
    decreases |st|
  {
    if i > 0 {
      MatchUnique(st[1..], req, i - 1);
    }
  }

  /**
   A URL with a `?` after which no `.` follows cannot end with a suffix that starts with
   `.` and has no `?` in it.
   */
  lemma QueryDefeatsSuffix(path: string, query: string, suffix: string)
    requires '.' !in query && '?' !in suffix && |suffix| > 0 && suffix[0] == '.'
    ensures !Text.EndsWith(path + "?" + query, suffix)
  {
    var url := path + "?" + query;
    if |suffix| <= |url| {
      var start := |url| - |suffix|;
      var k := if start > |path| then 0 else |path| - start;
      assert url[start..][k] != suffix[k] by {
        if start > |path| {
          assert url[start] == query[start - |path| - 1];
        } else {
          assert url[|path|] == '?';
          assert suffix[k] in suffix;
        }
      }
    }
  }

  /** A query string after the file name prevents caching: the extension must end the URL. */
  lemma QueryStringPreventsCaching(path: string, query: string)
    requires '.' !in query
    ensures !CacheableUrl(path + "?" + query)
  {
    forall e | e in CachedExtensions
      ensures !Text.EndsWith(path + "?" + query, "." + e)
    {
      QueryDefeatsSuffix(path, query, "." + e);
    }
  }

  /** The extension match is case-sensitive: an upper-case extension is not cached. */
  lemma ExtensionCaseMatters()
    ensures CacheableUrl("/cover.jpg")
    ensures !CacheableUrl("/cover.JPG")
  {
    assert Text.EndsWith("/cover.jpg", "." + "jpg");
    var url := "/cover.JPG";
    forall e | e in CachedExtensions
      ensures !Text.EndsWith(url, "." + e)
    {
      var suffix := "." + e;
      if |suffix| <= |url| {
        assert url[|url| - |suffix|..][|suffix| - 1] != suffix[|suffix| - 1];
      }
    }
  }
}

=== FILE: text.dfy ===
/**
 The string operations the front-end relies on: `toLowerCase`, `includes`,
 an end-anchored suffix match, `padStart` and the decimal rendering of an
 integer-valued JavaScript number. Strings are sequences of Unicode scalar
 values; JavaScript's UTF-16 code units are not modelled. No modelled operation
 depends on the difference: padding applies to ASCII digits, the URL suffixes are
 ASCII, and `includes` agrees on well-formed strings. Lower-casing is restricted to
 ASCII letters.
 */
module Text {

  predicate IsUpper(c: char) {
    'A' <= c <= 'Z'
  }

  predicate IsDigit(c: char) {
    '0' <= c <= '9'
  }

  predicate AllDigits(s: string) {
    forall i :: 0 <= i < |s| ==> IsDigit(s[i])
  }

  /** ASCII lower-casing of one character. */
  function LowerChar(c: char): (r: char)
    ensures !IsUpper(r)
    ensures !IsUpper(c) ==> r == c
    ensures IsUpper(c) ==> r as int - c as int == 'a' as int - 'A' as int
  {
    if IsUpper(c) then (c as int - 'A' as int + 'a' as int) as char else c
  }

  /** `s.toLowerCase()` restricted to ASCII: same length, every character lowered. */
  function Lower(s: string): (r: string)
    ensures |r| == |s|
    ensures forall i :: 0 <= i < |s| ==> r[i] == LowerChar(s[i])
  {
    seq(|s|, i requires 0 <= i < |s| => LowerChar(s[i]))
  }

  /** Lower-casing twice is lower-casing once. */
  lemma LowerIdempotent(s: string)
    ensures Lower(Lower(s)) == Lower(s)
  {
  }

  predicate IsPrefix(p: string, s: string) {
    |p| <= |s| && s[..|p|] == p
  }

  /** `q` occurs in `s` starting at position `i`. */
  predicate OccursAt(s: string, q: string, i: int) {
    0 <= i && i + |q| <= |s| && s[i..i + |q|] == q
  }

  /** `s.includes(q)`, computed by trying each start position from the left. */
  function Includes(s: string, q: string): bool
    decreases |s|
  {
    if IsPrefix(q, s) then true
    else if |s| == 0 then false
    else Includes(s[1..], q)
  }

  /** The left-to-right scan finds `q` exactly when some window of `s` equals `q`. */
  lemma {:induction false} IncludesIff(s: string, q: string)
    ensures Includes(s, q) <==> exists i :: OccursAt(s, q, i)
    decreases |s|
  {
    if IsPrefix(q, s) {
      assert OccursAt(s, q, 0);
    } else if |s| > 0 {
      IncludesIff(s[1..], q);
      forall i | 0 < i && i + |q| <= |s|
        ensures OccursAt(s, q, i) <==> OccursAt(s[1..], q, i - 1)
      {
        assert s[1..][i - 1..i - 1 + |q|] == s[i..i + |q|];
      }
      if Includes(s[1..], q) {
        var j :| OccursAt(s[1..], q, j);
        assert OccursAt(s, q, j + 1);
      }
    }
  }

  /** Every string includes the empty string. */
  lemma IncludesEmpty(s: string)
    ensures Includes(s, "")
  {
  }

  /** `s` ends with `suffix`: the end-anchored match `/suffix$/` of a regular expression. */
  predicate EndsWith(s: string, suffix: string) {
    |suffix| <= |s| && s[|s| - |suffix|..] == suffix
  }

  function DigitChar(d: nat): (c: char)
    requires d < 10
    ensures IsDigit(c)
    ensures c as int - '0' as int == d
  {
    ('0' as int + d) as char
  }

  /** The decimal value of a string of digits, most significant first. */
  function DecimalValue(s: string): nat
    requires AllDigits(s)
  {
    if |s| == 0 then 0
    else DecimalValue(s[..|s| - 1]) * 10 + (s[|s| - 1] as int - '0' as int)
  }

  /** `String(n)` for a non-negative integer-valued number: digits only, no leading zero. */
  function NatToDecimal(n: nat): (r: string)
    ensures |r| >= 1
    ensures AllDigits(r)
    ensures |r| > 1 ==> r[0] != '0'
    decreases n
  {
    if n < 10 then [DigitChar(n)] else NatToDecimal(n / 10) + [DigitChar(n % 10)]
  }

  /** Reading the rendered digits back gives the number: the rendering loses nothing. */
  lemma {:induction false} DecimalRoundTrip(n: nat)
    ensures DecimalValue(NatToDecimal(n)) == n
    decreases n
  {
    var r := NatToDecimal(n);
    if n >= 10 {
      DecimalRoundTrip(n / 10);
      assert r[..|r| - 1] == NatToDecimal(n / 10);
    }
  }

  /** Two numbers render to the same digits only if they are equal. */
  lemma NatToDecimalInjective(m: nat, n: nat)
    requires NatToDecimal(m) == NatToDecimal(n)
    ensures m == n
  {
    DecimalRoundTrip(m);
    DecimalRoundTrip(n);
  }

  /** `String(i)` for an integer-valued number: a minus sign before the digits of `-i` when negative. */
  function IntToDecimal(i: int): (r: string)
    ensures i >= 0 ==> r == NatToDecimal(i)
    ensures i < 0 ==> |r| >= 2 && r[0] == '-' && r[1..] == NatToDecimal(-i)
  {
    if i < 0 then "-" + NatToDecimal(-i) else NatToDecimal(i)
  }

  /** `s.padStart(width, fill)` with a one-character fill: left-pads up to `width`, never truncates. */
  function PadStart(s: string, width: nat, fill: char): (r: string)
    ensures |r| == if |s| >= width then |s| else width
    ensures r[|r| - |s|..] == s
    ensures forall i :: 0 <= i < |r| - |s| ==> r[i] == fill
    decreases width - |s|
  {
    if |s| >= width then s else PadStart([fill] + s, width, fill)
  }
}
